=== FILE: README.md ===
# Model viewer core in Dafny

This project models the interaction core of a small Angular/three.js model
viewer. Three parts make it up:

- The Three component (`ThreeComponent`) owns the orthographic camera, the
  root object that holds the model, and a pointer state machine. The machine
  turns pointer down/move/up into drag and click events. Each event goes to
  the listeners first, and the component's own handling runs only if no
  listener marked the event handled.
- The measurement classes: a base `Measurement` with an optional point limit,
  plus the distance and angle variants and their marker points.
- The viewer controller (`ModelViewerComponent`). It keeps the active
  measurement, the model mesh and the cross-section slab. It offers the
  view commands (move, zoom, reset, measurements, cross-section). It also
  listens to the component's events: a click places a measurement point; a
  drag moves a marker or turns the model about one axis of the rotation
  gizmo.

Everything is modelled as immutable values and pure step functions:

- Scene objects are `Node`s identified by a `NodeId`. The viewer hands out
  fresh ids from a counter.
- Coordinates are exact reals. Camera zoom is counted in exact tenths.
- The library computations the code calls are parameters, not definitions:
  - `distanceTo` and `angleTo`, constrained by `IsEuclidean` and `IsAngleTo`;
  - raycasting results (`sceneAt`, `rootAt`);
  - `worldToLocal`, world positions, unprojection, bounding boxes and the
    gizmo's screen position (`ModelViewer.Oracles`).

Modules, one per file: `Wrappers`, `Geometry`, `Enums`, `Scene`, `ThreeUtils`,
`Events`, `MeasurementPoints`, `Measurements`, `DistanceMeasurements`,
`AngleMeasurements`, `Gesture`, `Three`, `ModelViewer`.

Behaviours that are easy to misread:

- The drag/click decision at release looks only at the release position. A
  gesture that leaves its press point and comes back emits drags, then a
  click (`Gesture.WanderAndReturn`).
- A click is emitted only if the release ray strikes the root
  (`Gesture.PointerUp`).
- The base measurement's limit is -1, which means unlimited
  (`Measurements.NewMeasurement`).

## Model

| member | source | states |
|---|---|---|
| Enums.FromCode | src/app/three/three-enums.ts:1-4 | code 0 is exactly the left button, code 2 exactly the right; any other code is kept as is |
| Enums.CodeRoundTrip | src/app/three/three-enums.ts:1-4 | button codes and the buttons they can denote are in one-to-one correspondence |
| Scene.IndexOf | src/app/three/three.component.ts:188-189 | the index `Object3D.remove` splices out is the first child with the id; it is -1 exactly when the id is absent |
| Scene.RemoveChild | src/app/three/three.component.ts:188-189 | removal splices out exactly the first occurrence and leaves the list alone when the object is absent |
| Scene.WithoutAbsent | src/app/three/three.component.ts:188-189 | removing objects that are not children changes nothing |
| Scene.RemoveChildIsWithout | src/app/three/three.component.ts:188-189 | with unique children, removing one object filters out its id: ids stay unique and lose exactly that id |
| Scene.WithoutIds | src/app/model-viewer/measurements/measurement.ts:34-42 | removing a set of objects keeps children unique and removes exactly those ids |
| Scene.WithoutLength | src/app/model-viewer/measurements/measurement.ts:34-42 | removing a set of objects shrinks the child list by the number of them that were children |
| Scene.WithoutWithout | src/app/model-viewer/model-viewer.component.ts:219-229 | removing two sets one after the other is removing their union |
| Scene.AttachToRoot | src/app/three/three.component.ts:184-186 | the attached object becomes the last child, any earlier occurrence is removed, the root's pose is kept, and unique ids gain exactly the new id |
| Scene.RemoveFromScene | src/app/three/three.component.ts:188-206 | the object stops being a child, the others keep their order, and ids lose exactly its id |
| Scene.ResetRootTransform | src/app/three/three.component.ts:141-144 | position and rotation return to zero and the children are kept |
| Scene.ClearRoot | src/app/three/three.component.ts:208-211 | clearing leaves no child and the identity pose |
| ThreeUtils.IsNDC | src/app/three/three-utils.ts:22-24 | a cursor is in normalized device coordinates exactly when neither coordinate exceeds 1 in absolute value, the square's edges included |
| ThreeUtils.FindChild | src/app/three/three-utils.ts:163-175 | the result satisfies the predicate and lies in the subtree; no result means no node of the subtree satisfies it; a matching root is returned itself |
| ThreeUtils.FirstMatch | src/app/three/three-utils.ts:163-175 | reference search: the first element satisfying the predicate, none exactly when no element does |
| ThreeUtils.FindChildIsFirstMatch | src/app/three/three-utils.ts:163-175 | the recursive search returns the first matching node in pre-order |
| ThreeUtils.FindInChildrenIsFirstMatch | src/app/three/three-utils.ts:168-171 | the search loop over the children returns the first match in their joint pre-order |
| ThreeUtils.FirstMatchAppend | src/app/three/three-utils.ts:168-171 | the first match of a concatenation is in the first part when it has one, otherwise in the second |
| ThreeUtils.GetChildMesh | src/app/three/three-utils.ts:145-157 | the result is always a mesh; a mesh is its own answer; a leaf yields a result exactly when it is a mesh |
| ThreeUtils.GetChildMeshIsFindChild | src/app/three/three-utils.ts:145-157 | the mesh search is the generic search with "is a mesh", so it returns the first mesh in pre-order |
| ThreeUtils.GetChildMeshInIsFindInChildren | src/app/three/three-utils.ts:150-153 | the mesh search over the children is the generic search over the children |
| ThreeUtils.FocusedObject | src/app/three/three-utils.ts:32-42 | the focused object is the nearest hit's object, and there is none exactly when nothing is hit |
| ThreeUtils.IntersectionMesh | src/app/three/three-utils.ts:54-56 | the intersection is a new standalone mesh with a fresh id and no children |
| Events.NewClickEvent | src/app/three/three-click-event.ts:11-17 | a new click event is unhandled, carries its arguments, turns omitted ones into null and defaults its type |
| Events.NewDragEvent | src/app/three/three-drag-event.ts:13-21 | a new drag event is unhandled, has the drag type and carries its arguments |
| MeasurementPoints.NewMeasurementPoint | src/app/model-viewer/measurements/measurement-point.ts:6-19 | the marker sits at the given position, named "measurementPoint" and red unless told otherwise, with a sphere of radius 0.025 and 8 by 8 segments in its colour |
| MeasurementPoints.AppendPoint | src/app/model-viewer/measurements/measurement.ts:24-25 | appending a point adds exactly its id, and a new id keeps the points distinct |
| Measurements.NewMeasurement | src/app/model-viewer/measurements/measurement.ts:10-19 | a new measurement has no points and limit -1, which is no limit |
| Measurements.HasPointLimit | src/app/model-viewer/measurements/measurement.ts:10-12 | a measurement is capped exactly when its limit is at least 1, so the base default -1 means no cap |
| Measurements.SetNextPoint | src/app/model-viewer/measurements/measurement.ts:21-32 | a point is refused exactly when a limited measurement is full, and a refusal changes nothing; otherwise one point is appended (root-local when a context is given) and its marker becomes the root's last child; the limit is never exceeded |
| Measurements.RemoveMarkers | src/app/model-viewer/measurements/measurement.ts:35-39 | removing each point's marker in turn removes exactly the points' ids and keeps the root's pose |
| Measurements.Clear | src/app/model-viewer/measurements/measurement.ts:34-42 | the points are always dropped; with a context, exactly the markers leave the root |
| Measurements.DistinctPointIdsCount | src/app/model-viewer/measurements/measurement.ts:21-32 | distinct points have as many ids as points |
| Measurements.ClearDetachesEachMarker | src/app/model-viewer/measurements/measurement.ts:34-42 | clearing N points whose markers hang from the root detaches exactly N children |
| Measurements.FeedKeepsPrefix | src/app/model-viewer/measurements/measurement.ts:21-32 | repeated offers keep the first points up to the limit, in order, and ignore the rest; an unlimited measurement keeps them all |
| Measurements.FeedFull | src/app/model-viewer/measurements/measurement.ts:22 | a full limited measurement ignores every further point |
| DistanceMeasurements.NewDistanceMeasurement | src/app/model-viewer/measurements/distance-measurement.ts:16-18 | a distance measurement starts empty and unlimited |
| DistanceMeasurements.Value | src/app/model-viewer/measurements/distance-measurement.ts:4-14 | the accumulation loop computes the path length through the points in order, and 0 for fewer than two points |
| DistanceMeasurements.PathLengthAppend | src/app/model-viewer/measurements/distance-measurement.ts:9-11 | one more point adds the distance from the previous last point to it |
| DistanceMeasurements.PathLengthNonNegative | src/app/model-viewer/measurements/distance-measurement.ts:4-14 | with a Euclidean distance the value is never negative |
| DistanceMeasurements.PathLengthThree | src/app/model-viewer/measurements/distance-measurement.ts:9-11 | three points measure their two legs |
| DistanceMeasurements.LegLength | src/app/model-viewer/measurements/distance-measurement.ts:10 | a leg whose squared length is n squared has length n |
| DistanceMeasurements.SevenUnitPath | src/app/model-viewer/measurements/distance-measurement.ts:4-14 | the points (0,0,0), (3,0,0), (3,4,0) measure 7 |
| DistanceMeasurements.AlwaysAccepts | src/app/model-viewer/measurements/distance-measurement.ts:16-18 | a distance measurement never refuses a point |
| AngleMeasurements.NewAngleMeasurement | src/app/model-viewer/measurements/angle-measurement.ts:17-20 | an angle measurement starts empty with limit 3 |
| AngleMeasurements.AngleValue | src/app/model-viewer/measurements/angle-measurement.ts:4-15 | the value is 0 unless there are exactly three points, and otherwise lies between 0 and 180 degrees |
| AngleMeasurements.QuarterTurn | src/app/model-viewer/measurements/angle-measurement.ts:13 | the degree conversion gives 90 exactly at a quarter turn |
| AngleMeasurements.RightAngleIffPerpendicular | src/app/model-viewer/measurements/angle-measurement.ts:4-15 | three points read 90 exactly when the two arms at the middle point are perpendicular |
| AngleMeasurements.RightAngleExample | src/app/model-viewer/measurements/angle-measurement.ts:4-15 | the corner (1,0,0), (0,0,0), (0,1,0) reads 90 |
| AngleMeasurements.SubtractedInPlace | src/app/model-viewer/measurements/angle-measurement.ts:8-9 | the getter's in-place subtraction rewrites the first and last points as arms from the middle point and leaves the middle point alone |
| AngleMeasurements.ReadValueAsWritten | src/app/model-viewer/measurements/angle-measurement.ts:4-15 | the getter as written returns the intended value but leaves the points moved |
| AngleMeasurements.ReadAsWrittenMovesPoints | src/app/model-viewer/measurements/angle-measurement.ts:8-9 | a read as written leaves the points alone only when the middle point is at the origin |
| AngleMeasurements.ReadTwiceAsWrittenDiffers | src/app/model-viewer/measurements/angle-measurement.ts:8-9 | reading the skew corner twice gives 90 and then something else |
| AngleMeasurements.ReadValue | src/app/model-viewer/measurements/angle-measurement.ts:4-15 | the corrected getter returns the intended value, leaves the points alone, and a second read agrees |
| AngleMeasurements.KeepsFirstThree | src/app/model-viewer/measurements/angle-measurement.ts:17-20 | an angle measurement keeps the first three offered points, in order |
| AngleMeasurements.AngleMeasurementObject.Value | src/app/model-viewer/measurements/angle-measurement.ts:4-15 | the getter on the mutable object returns the intended value and leaves the points subtracted |
| Gesture.IsDragging | src/app/three/three.component.ts:43-53 | no button held is never a drag; with one held, it is a drag exactly when the cursor has left the epsilon square around the press point |
| Gesture.PointerDown | src/app/three/three.component.ts:250-255 | a press records the button, makes the current cursor the press point, selects the nearest scene hit or nothing, and is not a drag |
| Gesture.PointerMove | src/app/three/three.component.ts:257-281 | a move updates the cursor when there is a container; a drag event is emitted exactly when a held button is displaced, and carries the movement, the press point, the cursor, the button and the selection; with no button the press point follows the cursor |
| Gesture.PointerUp | src/app/three/three.component.ts:283-300 | a release always frees the button, and clicks exactly when a held, undisplaced pointer's ray strikes the root, with the nearest hit point |
| Gesture.ClientToNDC | src/app/three/three.component.ts:259-262 | the cursor is in normalized device coordinates exactly when it is inside the container |
| Gesture.RunAppend | src/app/three/three.component.ts:250-300 | running two traces in turn is running their concatenation |
| Gesture.PressedMoves | src/app/three/three.component.ts:264-277 | while a button is held, moves emit one drag per displaced position and no click |
| Gesture.IdleMoves | src/app/three/three.component.ts:278-280 | with no button held, moves emit nothing and the press point follows the cursor |
| Gesture.GestureOutputs | src/app/three/three.component.ts:250-300 | a press, moves and a release emit one drag per displaced position, and one click exactly when the release position is undisplaced and strikes the root |
| Gesture.StillGestureClicksOnce | src/app/three/three.component.ts:283-300 | a gesture that never leaves the press point emits no drag, and one click exactly when the release strikes the root |
| Gesture.DisplacedReleaseDrags | src/app/three/three.component.ts:283-300 | a gesture released away from its press point emits at least one drag and no click |
| Gesture.WanderAndReturn | src/app/three/three.component.ts:43-53 | a gesture that leaves the press point and returns to it emits one drag and then one click |
| Three.Resize | src/app/three/three.component.ts:225-236 | the frustum is centred, as wide as 3 times the aspect and 3 high, and the zoom is kept |
| Three.ResizeIdempotent | src/app/three/three.component.ts:225-236 | resizing is idempotent, the last resize wins, and resizing commutes with zooming |
| Three.CreateCamera | src/app/three/three.component.ts:115 | the first camera has zoom 1.0 and the extents for the aspect |
| Three.Zoom | src/app/three/three.component.ts:162-178 | zooming in adds a tenth while below 3.0, zooming out removes one while above 0.2, and nothing else changes |
| Three.ZoomStaysInRange | src/app/three/three.component.ts:162-178 | the zoom range [0.2, 3.0] is kept by every sequence of zoom steps |
| Three.RepeatedZoomIn | src/app/three/three.component.ts:164-167 | k steps in climb a tenth each, up to 3.0 |
| Three.RepeatedZoomOut | src/app/three/three.component.ts:169-172 | k steps out descend a tenth each, down to 0.2 |
| Three.ScrollDirection | src/app/three/three.component.ts:238-242 | the wheel zooms in exactly when its delta is negative |
| Three.ZoomThree | src/app/three/three.component.ts:162-178 | zooming touches only the camera's zoom, moves it by at most one tenth in the chosen direction, and keeps the range [0.2, 3.0] |
| Three.CreateThree | src/app/three/three.component.ts:34-36 | the component starts with an empty root, sensitivity 1 and the pointer at rest |
| Three.OnScroll | src/app/three/three.component.ts:238-242 | a scroll changes only the camera, zooming in for a negative delta and out otherwise |
| Three.OnWindowResize | src/app/three/three.component.ts:225-236 | a resize changes only the camera extents |
| Three.RotateRoot | src/app/three/three.component.ts:146-150 | a rotation appends one world-axis turn to the root's pose and changes nothing else |
| Three.MoveRoot | src/app/three/three.component.ts:152-160 | a move shifts the root's position by the delta and changes nothing else |
| Three.MoveThenBack | src/app/three/three.component.ts:152-160 | moving by a delta and then by its opposite restores the component |
| Three.HandleDrag | src/app/three/three.component.ts:307-324 | the left button turns the root about Y by the horizontal delta and then about X by the vertical one; the right button pans it with y inverted; other buttons do nothing; only the root's pose changes |
| Three.PanThenOppositeRestores | src/app/three/three.component.ts:319-323 | a pan followed by the opposite pan restores the component |
| Three.AfterDrag | src/app/three/three.component.ts:273-275 | the built-in drag handling runs exactly when no listener handled the event |
| Three.UnhandledLeftDragOrbits | src/app/three/three.component.ts:273-275 | an unhandled left drag orbits the root about Y, then X |
| Three.ResetRoot | src/app/three/three.component.ts:141-144 | the root's pose is reset and nothing else changes |
| Three.ClearThree | src/app/three/three.component.ts:208-211 | clearing the root empties it and resets its pose |
| ModelViewer.NewViewer | src/app/model-viewer/model-viewer.component.ts:16-25 | a new viewer has an empty model mesh, no measurement and no slab |
| ModelViewer.NewViewerValid | src/app/model-viewer/model-viewer.component.ts:16-25 | a new viewer over a well-formed scene satisfies the viewer invariant |
| ModelViewer.MoveDelta | src/app/model-viewer/model-viewer.component.ts:231-252 | "up", "down", "left" and "right" move 0.2 along the screen axes; any other name moves nowhere |
| ModelViewer.MoveModel | src/app/model-viewer/model-viewer.component.ts:231-252 | the root's position moves by the direction's delta while its rotations, its children and the rest of the viewer are kept; without a component nothing changes |
| ModelViewer.OppositeMovesCancel | src/app/model-viewer/model-viewer.component.ts:231-252 | up then down, and left then right, restore the view; an unknown direction changes nothing |
| ModelViewer.ZoomCommand | src/app/model-viewer/model-viewer.component.ts:254-265 | "in" and "out" zoom the camera; any other name, or no component, changes nothing |
| ModelViewer.ClearMeasurement | src/app/model-viewer/model-viewer.component.ts:219-229 | only with both a measurement and a component: the markers and the slab leave the root, both are dropped, and nothing else changes |
| ModelViewer.ClearMeasurementKeepsValid | src/app/model-viewer/model-viewer.component.ts:219-229 | clearing keeps the viewer invariant and removes exactly the markers' and the slab's ids |
| ModelViewer.ResetView | src/app/model-viewer/model-viewer.component.ts:162-167 | after a reset the root holds only the model mesh at the identity pose, the measurement is gone, and the slab is dropped exactly when a measurement was active |
| ModelViewer.ResetViewKeepsValid | src/app/model-viewer/model-viewer.component.ts:162-167 | a reset keeps the viewer invariant |
| ModelViewer.TakeDistanceMeasurement | src/app/model-viewer/model-viewer.component.ts:169-172 | the old measurement is cleared and a new empty distance measurement becomes active |
| ModelViewer.TakeAngleMeasurement | src/app/model-viewer/model-viewer.component.ts:174-177 | the old measurement is cleared and a new empty angle measurement becomes active |
| ModelViewer.TakeMeasurementKeepsValid | src/app/model-viewer/model-viewer.component.ts:169-177 | starting a measurement keeps the viewer invariant |
| ModelViewer.AddCrossSectionMesh | src/app/model-viewer/model-viewer.component.ts:179-199 | with a component and a mesh under the root, a new slab 1.2 times the first mesh's width and height and 0.001 deep is recorded and attached; otherwise nothing changes |
| ModelViewer.AddCrossSectionMeshKeepsValid | src/app/model-viewer/model-viewer.component.ts:179-199 | adding a slab keeps the viewer invariant |
| ModelViewer.TakeCrossSectionAsWritten | src/app/model-viewer/model-viewer.component.ts:201-217 | without a component, a displayed mesh or a slab, the step changes nothing and throws nothing; the only exception is a null mesh, and it leaves the root emptied |
| ModelViewer.CrossSectionAsWrittenThrows | src/app/model-viewer/model-viewer.component.ts:201-229 | with a measurement active, the step as written hands a null slab to the intersection and throws; nothing is rolled back, so the root is left empty at the identity pose and the measurement and slab are gone |
| ModelViewer.TakeCrossSection | src/app/model-viewer/model-viewer.component.ts:201-217 | the corrected step leaves the root holding only the intersection mesh at the identity pose and drops the measurement |
| ModelViewer.CrossSectionAgrees | src/app/model-viewer/model-viewer.component.ts:201-217 | wherever the step as written does not throw it ends in the same state as the corrected one, and without a measurement it never throws |
| ModelViewer.TakeCrossSectionKeepsValid | src/app/model-viewer/model-viewer.component.ts:201-217 | the corrected step keeps the viewer invariant |
| ModelViewer.SetNextMeasurementPoint | src/app/model-viewer/model-viewer.component.ts:267-271 | a point goes to the active measurement with the root as context only when both exist, and an accepted point uses up one fresh id |
| ModelViewer.HandleClick | src/app/model-viewer/model-viewer.component.ts:287-292 | a click with a world point is forwarded and marked handled; a click without one is left alone |
| ModelViewer.ClickAddsPoint | src/app/model-viewer/model-viewer.component.ts:287-292 | a click while a measurement has room appends exactly one point at the root-local hit, adds exactly its marker to the root, and keeps the invariant |
| ModelViewer.ClickKeepsValid | src/app/model-viewer/model-viewer.component.ts:287-292 | every click keeps the viewer invariant |
| ModelViewer.Relocate | src/app/model-viewer/model-viewer.component.ts:298-304 | a dragged marker's new world position takes the cursor's world x and y and its old world z, and is converted into the root's frame |
| ModelViewer.RelocateKeepsDepth | src/app/model-viewer/model-viewer.component.ts:298-304 | when the root's frame conversions undo each other, the stored marker sits in world space under the cursor at its old depth |
| ModelViewer.MovePoint | src/app/model-viewer/model-viewer.component.ts:296-305 | only the dragged marker's position changes; order and every other point are kept |
| ModelViewer.MovePointKeepsIds | src/app/model-viewer/model-viewer.component.ts:296-305 | moving a marker keeps the points' ids, so they stay distinct |
| ModelViewer.OrbitPreOrder | src/app/model-viewer/model-viewer.component.ts:72-74 | each gizmo orbit lists itself, its circle and its sphere |
| ModelViewer.GizmoNames | src/app/model-viewer/model-viewer.component.ts:307 | the name search in the gizmo succeeds exactly for the three sphere names |
| ModelViewer.SphereTurn | src/app/model-viewer/model-viewer.component.ts:312-339 | the x sphere turns about X by the vertical delta, the y sphere about Y by the horizontal delta, the z sphere about Z; any other name gives the zero axis and angle |
| ModelViewer.ZTurnClosedForm | src/app/model-viewer/model-viewer.component.ts:323-334 | the z sphere turns by half the z component of the cross product, written out in the screen deltas |
| ModelViewer.HandleDrag | src/app/model-viewer/model-viewer.component.ts:294-345 | only a left drag with a selection and a component is handled: a marker under an NDC cursor is relocated, a gizmo sphere turns the root about its axis, and anything else is left to the built-in handling; the model mesh, slab and ids never change |
| ModelViewer.HandleDragKeepsValid | src/app/model-viewer/model-viewer.component.ts:294-345 | every drag keeps the viewer invariant |
| ModelViewer.AfterViewInit | src/app/model-viewer/model-viewer.component.ts:31-42 | initialising throws exactly when there is no component; otherwise it is a view reset, so the root holds only the model mesh at the identity pose |
| ModelViewer.AfterViewInitKeepsValid | src/app/model-viewer/model-viewer.component.ts:31-42 | initialising keeps the viewer invariant |
| ModelViewer.PointerDownOn | src/app/three/three.component.ts:250-255 | a press on the viewer steps only the component's pointer |
| ModelViewer.PointerMoveOn | src/app/three/three.component.ts:257-281 | a move steps the pointer and never touches the model mesh, the slab or the ids; one that emits no drag changes nothing else |
| ModelViewer.PointerUpOn | src/app/three/three.component.ts:283-305 | a release frees the button and keeps the rest of the pointer; a release that emits no click changes nothing else |
| ModelViewer.PointerStepsKeepValid | src/app/three/three.component.ts:250-300 | press, move and release, routed through the viewer's listeners, keep the viewer invariant |
| ModelViewer.ClickPlacesPoint | src/app/model-viewer/model-viewer.component.ts:287-292 | a still click over the model while a measurement has room places the next point at the nearest hit, root-local, and keeps the invariant |
| ModelViewer.XSphereDragTurnsAboutX | src/app/model-viewer/model-viewer.component.ts:313-316 | a left drag starting on the x sphere turns the root about X by the vertical delta only, and the built-in orbit does not run |
| ModelViewer.EmptyDragOrbits | src/app/three/three.component.ts:307-317 | a left drag on empty space is left to the built-in orbit, which turns the root about Y, then X |

## Left out

- Rendering, lights, the animation loop, the renderer and the Angular template bindings are left out. The template is assumed to route the component's click and drag events to the viewer's listeners.
- Model loading is left out (`parseObjFile`, `loadFromServer`, `loadFromZip` and the `ThreeUtils` loaders), because it is file and network I/O. `loadExampleCube` is a view reset; `setModelMesh` only copies geometry and material into the same mesh, so the model treats it as no change.
- Some library geometry is left out: CSG intersection geometry, bounding boxes, `worldToLocal`, `unproject`, `project` and raycasting. Each is a parameter (`ModelViewer.Oracles`, `sceneAt`, `rootAt`, `toLocal`). Rotations are recorded as world-axis turns rather than composed into a matrix.
- `createRotationControl`'s circle geometry, colours, layers and orbit orientations are left out. The gizmo is the constant `ModelViewer.RotationControl`, whose names and tree shape are all the handlers use. It sits in the scene, not under the root.
- `onUpdate` (resetting the gizmo's rotation each frame) and `preventContextMenu` are left out, because they touch no modelled state.
- Resource disposal in `removeFromScene` is left out, because freeing GPU buffers changes no modelled state.
- Events are immutable values. The source's drag event holds the component's `mousePosition` vector itself, and `onPointerMove` updates that vector in place, so a listener that kept the event would see its `currentMousePosition` change. Its `originalClickPosition` does not change, because the component only ever replaces `clickPosition` with a fresh clone. Here each event holds copies.
- Three.Zoom: zoom is counted in exact tenths, so it stops at 30 going in and at 2 going out. The source steps a double by 0.1. Going in from 1.0 it also stops after 20 steps, at 3.0000000000000018. Going out it does not stop at 0.2: after 8 steps the zoom is 0.20000000000000015, which is still above 0.2, so a 9th step lands at 0.10000000000000014. `Three.ZoomStaysInRange` and `Three.RepeatedZoomOut` therefore promise a floor of 2 tenths where the program reaches about 1 tenth.
- Three.Resize: the aspect ratio is taken as a finite real. In the source it is `clientWidth / clientHeight`, with 0 for a missing container, so a missing or zero-height container gives infinite or NaN frustum extents, both when the camera is created and on resize. That case is not represented; `Three.CreateCamera` and `Three.OnWindowResize` share this.
- Gesture.ClientToNDC requires a container of positive width and height. A zero-size container divides by zero (NaN) in the source.
- Cursor positions are exact reals rather than doubles. The displacement threshold is `Number.EPSILON` written out exactly.
- The component's own `handleClick` only logs, so an unhandled click changes nothing (`ModelViewer.PointerUpOn`).
- ThreeUtils.IntersectionMesh returns a fresh mesh node without its geometry.

## Findings

| source | as written | input that shows it | evidently intended | confidence | as-written member | corrected member |
|---|---|---|---|---|---|---|
| src/app/model-viewer/measurements/angle-measurement.ts:8-9 | `Vector3.sub` subtracts in place, so reading `value` rewrites the first and last points' positions | markers at (2,1,0), (1,1,0), (1,3,0): the first read gives 90, the markers move to (1,0,0) and (0,2,0), and the second read is not 90 | compute the arms into fresh vectors; a read leaves the points alone | high; not executed | AngleMeasurements.ReadTwiceAsWrittenDiffers | AngleMeasurements.ReadValue |
| src/app/model-viewer/model-viewer.component.ts:205-209 | the slab is null-checked, then `clearMeasurement` nulls it when a measurement is active, and only then is it passed to `getIntersectionMesh` | a component showing a mesh, with a slab added and a measurement active | take the slab before clearing, so the intersection always gets both meshes | high; not executed | ModelViewer.CrossSectionAsWrittenThrows | ModelViewer.TakeCrossSection |

=== FILE: angle_measurement.dfy ===
/** The angle variant (angle-measurement.ts): at most three points, valued
    as the angle in degrees at the middle point. */
module AngleMeasurements {
  import opened Wrappers
  import opened Geometry
  import opened Scene
  import opened MeasurementPoints
  import opened Measurements

  const ANGLE_POINT_LIMIT: int := 3

  /** The constructor sets the limit to 3 after the base constructor. */
  function NewAngleMeasurement(): (m: Measurement)
    ensures m.kind == Angle && m.points == [] && m.pointLimit == 3
    ensures HasPointLimit(m)
  {
    NewMeasurement(Angle).(pointLimit := ANGLE_POINT_LIMIT)
  }

  /** The value the getter means to compute: 0 unless there are exactly
      three points, otherwise the angle between p0 - p1 and p2 - p1 converted
      to degrees. */
  function AngleValue(ps: seq<Vec3>, angleTo: (Vec3, Vec3) -> real): (v: real)
    ensures |ps| != 3 ==> v == 0.0
    ensures IsAngleTo(angleTo) ==> 0.0 <= v <= 180.0
  {
    if |ps| != 3 then 0.0
    else angleTo(Sub(ps[0], ps[1]), Sub(ps[2], ps[1])) * (180.0 / PI)
  }

  /** Degrees from radians: 90 exactly at a quarter turn. */
  lemma QuarterTurn(a: real)
    ensures a * (180.0 / PI) == 90.0 <==> a == PI / 2.0
  {
  }

  /** With three points, the value is 90 exactly when the two arms at the
      middle point are perpendicular (arms of zero length excepted). */
  lemma RightAngleIffPerpendicular(a: Vec3, b: Vec3, c: Vec3, angleTo: (Vec3, Vec3) -> real)
    requires IsAngleTo(angleTo)
    requires Sub(a, b) != Origin && Sub(c, b) != Origin
    ensures AngleValue([a, b, c], angleTo) == 90.0 <==> Dot(Sub(a, b), Sub(c, b)) == 0.0
  {
    var u, v := Sub(a, b), Sub(c, b);
    assert angleTo(u, v) == PI / 2.0 <==> Dot(u, v) == 0.0;
    QuarterTurn(angleTo(u, v));
    assert AngleValue([a, b, c], angleTo) == angleTo(u, v) * (180.0 / PI);
  }

  /** The arms of the corner (1,0,0), (0,0,0), (0,1,0) are the x and y axes. */
  lemma AxisArms()
    ensures Sub(XAxis, Origin) != Origin && Sub(YAxis, Origin) != Origin
    ensures Dot(Sub(XAxis, Origin), Sub(YAxis, Origin)) == 0.0
  {
    assert Sub(XAxis, Origin).x == 1.0;
    assert Sub(YAxis, Origin).y == 1.0;
  }

  /** The points (1,0,0), (0,0,0), (0,1,0) measure 90 degrees. */
  lemma RightAngleExample(angleTo: (Vec3, Vec3) -> real)
    requires IsAngleTo(angleTo)
    ensures AngleValue([XAxis, Origin, YAxis], angleTo) == 90.0
  {
    AxisArms();
    RightAngleIffPerpendicular(XAxis, Origin, YAxis, angleTo);
  }

  /** The result of reading `value`: the number, and the points as they are
      afterwards. */
  datatype AngleRead = AngleRead(value: real, points: seq<MeasurementPoint>)

  /** The points after the getter's in-place `sub` calls: `points[0]` becomes
      p0 - p1 and `points[2]` becomes p2 - p1; anything but three points is
      left alone. */
  function SubtractedInPlace(ps: seq<MeasurementPoint>): (r: seq<MeasurementPoint>)
    ensures |r| == |ps|
    ensures |ps| != 3 ==> r == ps
    ensures |ps| == 3 ==>
              && r[1] == ps[1]
              && r[0] == ps[0].(position := Sub(ps[0].position, ps[1].position))
              && r[2] == ps[2].(position := Sub(ps[2].position, ps[1].position))
  {
    if |ps| != 3 then ps
    else
      [ps[0].(position := Sub(ps[0].position, ps[1].position)),
       ps[1],
       ps[2].(position := Sub(ps[2].position, ps[1].position))]
  }

  /** The getter as written: `Vector3.sub` subtracts in place, so computing
      the arms rewrites the first and last markers. The first read still
      yields the intended value. */
  function ReadValueAsWritten(ps: seq<MeasurementPoint>, angleTo: (Vec3, Vec3) -> real): (r: AngleRead)
    ensures r.value == AngleValue(Positions(ps), angleTo)
    ensures r.points == SubtractedInPlace(ps)
  {
    if |ps| != 3 then AngleRead(0.0, ps)
    else
      var moved := SubtractedInPlace(ps);
      AngleRead(angleTo(moved[0].position, moved[2].position) * (180.0 / PI), moved)
  }

  /** A read as written leaves the points alone only when the middle point
      sits at the origin. */
  lemma ReadAsWrittenMovesPoints(ps: seq<MeasurementPoint>, angleTo: (Vec3, Vec3) -> real)
    requires |ps| == 3
    ensures ReadValueAsWritten(ps, angleTo).points == ps <==> ps[1].position == Origin
  {
    var r := ReadValueAsWritten(ps, angleTo);
    if r.points == ps {
      assert r.points[0].position == ps[0].position;
    }
  }

  /** Markers at (2,1,0), (1,1,0), (1,3,0). */
  function SkewCorner(): seq<MeasurementPoint> {
    [NewMeasurementPoint(0, Vec3(2.0, 1.0, 0.0), None, None),
     NewMeasurementPoint(1, Vec3(1.0, 1.0, 0.0), None, None),
     NewMeasurementPoint(2, Vec3(1.0, 3.0, 0.0), None, None)]
  }

  /** The in-place subtraction moves the skew corner's outer markers to
      (1,0,0) and (0,2,0). */
  lemma SkewCornerMoves()
    ensures Positions(SkewCorner()) == [Vec3(2.0, 1.0, 0.0), Vec3(1.0, 1.0, 0.0), Vec3(1.0, 3.0, 0.0)]
    ensures Positions(SubtractedInPlace(SkewCorner())) == [Vec3(1.0, 0.0, 0.0), Vec3(1.0, 1.0, 0.0), Vec3(0.0, 2.0, 0.0)]
  {
    var moved := SubtractedInPlace(SkewCorner());
    assert moved[0].position == Vec3(1.0, 0.0, 0.0);
    assert moved[2].position == Vec3(0.0, 2.0, 0.0);
  }

  /** The skew corner is a right angle: its arms (1,0,0) and (0,2,0) are
      non-zero and perpendicular. */
  lemma SkewCornerArms()
    ensures Sub(Vec3(2.0, 1.0, 0.0), Vec3(1.0, 1.0, 0.0)) != Origin
    ensures Sub(Vec3(1.0, 3.0, 0.0), Vec3(1.0, 1.0, 0.0)) != Origin
    ensures Dot(Sub(Vec3(2.0, 1.0, 0.0), Vec3(1.0, 1.0, 0.0)), Sub(Vec3(1.0, 3.0, 0.0), Vec3(1.0, 1.0, 0.0))) == 0.0
  {
    assert Sub(Vec3(2.0, 1.0, 0.0), Vec3(1.0, 1.0, 0.0)).x == 1.0;
    assert Sub(Vec3(1.0, 3.0, 0.0), Vec3(1.0, 1.0, 0.0)).y == 2.0;
  }

  /** The corner the moved markers make with (1,1,0) is not a right angle:
      its arms (0,-1,0) and (-1,1,0) have dot product -1. */
  lemma MovedCornerArms()
    ensures Sub(Vec3(1.0, 0.0, 0.0), Vec3(1.0, 1.0, 0.0)) != Origin
    ensures Sub(Vec3(0.0, 2.0, 0.0), Vec3(1.0, 1.0, 0.0)) != Origin
    ensures Dot(Sub(Vec3(1.0, 0.0, 0.0), Vec3(1.0, 1.0, 0.0)), Sub(Vec3(0.0, 2.0, 0.0), Vec3(1.0, 1.0, 0.0))) == -1.0
  {
    assert Sub(Vec3(1.0, 0.0, 0.0), Vec3(1.0, 1.0, 0.0)).y == -1.0;
    assert Sub(Vec3(0.0, 2.0, 0.0), Vec3(1.0, 1.0, 0.0)).x == -1.0;
  }

  /** Reading the value twice as written gives two different answers: the
      skew corner reads 90 degrees, and the second read measures the moved
      markers instead. */
  lemma ReadTwiceAsWrittenDiffers(angleTo: (Vec3, Vec3) -> real)
    requires IsAngleTo(angleTo)
    ensures var first := ReadValueAsWritten(SkewCorner(), angleTo);
      var second := ReadValueAsWritten(first.points, angleTo);
      first.value == 90.0 && second.value != 90.0
  {
    SkewCornerMoves();
    SkewCornerArms();
    MovedCornerArms();
    RightAngleIffPerpendicular(Vec3(2.0, 1.0, 0.0), Vec3(1.0, 1.0, 0.0), Vec3(1.0, 3.0, 0.0), angleTo);
    RightAngleIffPerpendicular(Vec3(1.0, 0.0, 0.0), Vec3(1.0, 1.0, 0.0), Vec3(0.0, 2.0, 0.0), angleTo);
  }

  /** The getter as evidently intended (the arms computed into fresh
      vectors): the value above, and the points untouched, so every read
      agrees with the last. */
  function ReadValue(ps: seq<MeasurementPoint>, angleTo: (Vec3, Vec3) -> real): (r: AngleRead)
    ensures r.points == ps
    ensures r.value == AngleValue(Positions(ps), angleTo)
    ensures ReadValue(r.points, angleTo) == r
  {
    if |ps| != 3 then AngleRead(0.0, ps)
    else
      var v1 := Sub(ps[0].position, ps[1].position);
      var v2 := Sub(ps[2].position, ps[1].position);
      AngleRead(angleTo(v1, v2) * (180.0 / PI), ps)
  }

  /** An angle measurement fed points one by one keeps the first three and
      refuses every later one. */
  lemma KeepsFirstThree(pts: seq<Vec3>, firstId: NodeId)
    ensures var m := Feed(NewAngleMeasurement(), pts, firstId);
      |m.points| == Min(|pts|, 3) && Positions(m.points) == pts[..Min(|pts|, 3)]
  {
    FeedKeepsPrefix(NewAngleMeasurement(), pts, firstId);
  }

  /** The getter on a mutable measurement object, as the source has it. */
  class AngleMeasurementObject {
    var points: seq<MeasurementPoint>

    constructor(ps: seq<MeasurementPoint>)
      ensures points == ps
    {
      points := ps;
    }

    method Value(angleTo: (Vec3, Vec3) -> real) returns (v: real)
      modifies this
      ensures v == AngleValue(Positions(old(points)), angleTo)
      ensures points == SubtractedInPlace(old(points))
    {
      var r := ReadValueAsWritten(points, angleTo);
      points := r.points;
      v := r.value;
    }
  }
}

=== FILE: distance_measurement.dfy ===
/** The distance variant (distance-measurement.ts): unlimited, valued as
    the length of the polyline through its points. */
module DistanceMeasurements {
  import opened Wrappers
  import opened Geometry
  import opened Scene
  import opened MeasurementPoints
  import opened Measurements

  /** The constructor only calls the base one, so the limit stays -1. */
  function NewDistanceMeasurement(): (m: Measurement)
    ensures m.kind == Distance && m.points == [] && m.pointLimit == -1
  {
    NewMeasurement(Distance)
  }

  /** Reference definition of the value: the sum, over consecutive pairs,
      of the distance between them; 0 with fewer than two points. */
  function PathLength(ps: seq<Vec3>, dist: (Vec3, Vec3) -> real): real
    decreases |ps|
  {
    if |ps| < 2 then 0.0
    else PathLength(ps[..|ps| - 1], dist) + dist(ps[|ps| - 2], ps[|ps| - 1])
  }

  /** The `value` getter, with the source's accumulation loop. */
  method Value(m: Measurement, dist: (Vec3, Vec3) -> real) returns (v: real)
    ensures v == PathLength(Positions(m.points), dist)
    ensures |m.points| < 2 ==> v == 0.0
  {
    var ps := Positions(m.points);
    if |ps| < 2 {
      return 0.0;
    }
    var total := 0.0;
    var i := 0;
    while i < |ps| - 1
      invariant 0 <= i <= |ps| - 1
      invariant total == PathLength(ps[..i + 1], dist)
    {
      assert ps[..i + 2][..i + 1] == ps[..i + 1];
      total := total + dist(ps[i], ps[i + 1]);
      i := i + 1;
    }
    assert ps[..i + 1] == ps;
    return total;
  }

  /** Appending a point adds the distance from the last point to it. */
  lemma PathLengthAppend(ps: seq<Vec3>, q: Vec3, dist: (Vec3, Vec3) -> real)
    requires |ps| >= 1
    ensures PathLength(ps + [q], dist) == PathLength(ps, dist) + dist(ps[|ps| - 1], q)
  {
    assert (ps + [q])[..|ps|] == ps;
  }

  /** A distance function that is never negative gives a value that is
      never negative. */
  lemma {:induction false} PathLengthNonNegative(ps: seq<Vec3>, dist: (Vec3, Vec3) -> real)
    requires IsEuclidean(dist)
    ensures PathLength(ps, dist) >= 0.0
    decreases |ps|
  {
    if |ps| >= 2 {
      PathLengthNonNegative(ps[..|ps| - 1], dist);
    }
  }

  lemma SquareBelow(a: real, b: real)
    requires 0.0 <= a < b
    ensures a * a < b * b
  {
    var gap := b - a;
    assert b * b == (a + gap) * (a + gap);
    assert (a + gap) * (a + gap) == a * a + 2.0 * a * gap + gap * gap;
    assert a * gap >= 0.0;
    assert gap * gap > 0.0;
  }

  lemma SquareMonotone(d: real, n: real)
    requires 0.0 <= d && 0.0 <= n
    ensures d < n ==> d * d < n * n
    ensures n < d ==> n * n < d * d
  {
    if d < n {
      SquareBelow(d, n);
    } else if n < d {
      SquareBelow(n, d);
    }
  }

  /** A non-negative real whose square is `n * n` is `n`. */
  lemma RootOfSquare(d: real, n: real)
    requires d >= 0.0 && n >= 0.0 && d * d == n * n
    ensures d == n
  {
    SquareMonotone(d, n);
  }

  /** Three points measure the two legs between them. */
  lemma PathLengthThree(a: Vec3, b: Vec3, c: Vec3, dist: (Vec3, Vec3) -> real)
    ensures PathLength([a, b, c], dist) == dist(a, b) + dist(b, c)
  {
    var ps := [a, b, c];
    assert ps[..|ps| - 1] == [a, b];
    assert [a, b][..1] == [a];
    assert PathLength([a, b], dist) == PathLength([a], dist) + dist(a, b);
    assert PathLength(ps, dist) == PathLength([a, b], dist) + dist(b, c);
  }

  /** Under the Euclidean axioms, a leg whose squared length is `n * n` has
      length `n`. */
  lemma LegLength(dist: (Vec3, Vec3) -> real, a: Vec3, b: Vec3, n: real)
    requires IsEuclidean(dist) && n >= 0.0 && LengthSq(Sub(a, b)) == n * n
    ensures dist(a, b) == n
  {
    var d := dist(a, b);
    assert d >= 0.0 && d * d == n * n;
    RootOfSquare(d, n);
  }

  /** The points (0,0,0), (3,0,0), (3,4,0) measure 3 + 4 = 7. */
  lemma SevenUnitPath(dist: (Vec3, Vec3) -> real)
    requires IsEuclidean(dist)
    ensures PathLength([Vec3(0.0, 0.0, 0.0), Vec3(3.0, 0.0, 0.0), Vec3(3.0, 4.0, 0.0)], dist) == 7.0
  {
    var a, b, c := Vec3(0.0, 0.0, 0.0), Vec3(3.0, 0.0, 0.0), Vec3(3.0, 4.0, 0.0);
    PathLengthThree(a, b, c, dist);
    LegLength(dist, a, b, 3.0);
    LegLength(dist, b, c, 4.0);
  }

  /** A distance measurement accepts every point: `setNextPoint` never
      refuses it for count, and each point lands at the end. */
  lemma AlwaysAccepts(m: Measurement, point: Vec3, newId: NodeId, context: Option<Root>, toLocal: Vec3 -> Vec3)
    requires m.kind == Distance && m.pointLimit == NewDistanceMeasurement().pointLimit
    ensures var r := SetNextPoint(m, point, newId, context, toLocal);
      r.accepted && |r.measurement.points| == |m.points| + 1
  {
  }
}

=== FILE: enums.dfy ===
/** The two enumerations of the Three component. */
module Enums {

  /** `MouseEvent.button`: 0 is the main (left) button and 2 the secondary
      (right) one; the handlers store whatever code the browser reports, so
      every other code is kept as `Other`. */
  datatype MouseButton = Left | Right | Other(code: int)

  /** The browser's button code seen as a `MouseButton`. */
  function FromCode(code: int): (b: MouseButton)
    ensures b == Left <==> code == 0
    ensures b == Right <==> code == 2
    ensures b.Other? ==> b.code == code
  {
    if code == 0 then Left else if code == 2 then Right else Other(code)
  }

  /** The browser's button code of a `MouseButton`. */
  function Code(b: MouseButton): int {
    match b
    case Left => 0
    case Right => 2
    case Other(c) => c
  }

  /** A button value that `FromCode` can produce. */
  predicate Canonical(b: MouseButton) {
    b.Other? ==> b.code != 0 && b.code != 2
  }

  /** Codes and canonical buttons are in one-to-one correspondence. */
  lemma CodeRoundTrip(code: int, b: MouseButton)
    ensures Code(FromCode(code)) == code
    ensures Canonical(FromCode(code))
    ensures Canonical(b) ==> FromCode(Code(b)) == b
  {
  }

  datatype ZoomDirection = In | Out
}

=== FILE: events.dfy ===
/** The two events the Three component emits (three-click-event.ts,
    three-drag-event.ts). `handled` is the flag a listener sets to suppress
    the component's own handling. */
module Events {
  import opened Wrappers
  import opened Geometry
  import opened Enums
  import opened Scene

  const CLICK_EVENT_TYPE: string := "three-click-event"
  const DRAG_EVENT_TYPE: string := "three-drag-event"

  datatype ClickEvent = ClickEvent(
    eventType: string,
    button: MouseButton,
    selectedObject: Option<Node>,
    worldIntersectionPoint: Option<Vec3>,
    handled: bool)

  /** `new ThreeClickEvent(button, selectedObject?, worldIntersectionPoint?, type?)`:
      omitted arguments (`None`) become null, the type defaults to
      "three-click-event", and the event starts unhandled. */
  function NewClickEvent(button: MouseButton, selectedObject: Option<Node>, point: Option<Vec3>, eventType: Option<string>): (e: ClickEvent)
    ensures !e.handled
    ensures e.button == button
    ensures e.selectedObject == selectedObject && e.worldIntersectionPoint == point
    ensures eventType.None? ==> e.eventType == CLICK_EVENT_TYPE
    ensures eventType.Some? ==> e.eventType == eventType.value
  {
    ClickEvent(eventType.GetOr(CLICK_EVENT_TYPE), button, selectedObject, point, false)
  }

  datatype DragEvent = DragEvent(
    eventType: string,
    screenDelta: Vec2,
    originalClickPosition: Vec2,
    currentMousePosition: Vec2,
    button: MouseButton,
    selectedObject: Option<Node>,
    handled: bool)

  /** `new ThreeDragEvent(screenDelta, originalClickPosition, currentMousePosition, button, selectedObject?)`:
      the vectors and the button are stored as given, an omitted object
      becomes null, the type is always "three-drag-event", and the event
      starts unhandled. */
  function NewDragEvent(screenDelta: Vec2, originalClickPosition: Vec2, currentMousePosition: Vec2, button: MouseButton, selectedObject: Option<Node>): (e: DragEvent)
    ensures !e.handled && e.eventType == DRAG_EVENT_TYPE
    ensures e.screenDelta == screenDelta && e.originalClickPosition == originalClickPosition
    ensures e.currentMousePosition == currentMousePosition && e.button == button
    ensures e.selectedObject == selectedObject
  {
    DragEvent(DRAG_EVENT_TYPE, screenDelta, originalClickPosition, currentMousePosition, button, selectedObject, false)
  }
}

=== FILE: geometry.dfy ===
/** Value types for positions and orientations. Coordinates are exact reals;
    the library's square root and inverse cosine are not defined here but
    passed in as functions constrained by the axioms below. */
module Geometry {

  /** A pointer position in normalized device coordinates, or a screen delta. */
  datatype Vec2 = Vec2(x: real, y: real)

  /** A world-space or local-space position. */
  datatype Vec3 = Vec3(x: real, y: real, z: real)

  const Origin2: Vec2 := Vec2(0.0, 0.0)
  const Origin: Vec3 := Vec3(0.0, 0.0, 0.0)
  const XAxis: Vec3 := Vec3(1.0, 0.0, 0.0)
  const YAxis: Vec3 := Vec3(0.0, 1.0, 0.0)
  const ZAxis: Vec3 := Vec3(0.0, 0.0, 1.0)

  function Add(a: Vec3, b: Vec3): Vec3 {
    Vec3(a.x + b.x, a.y + b.y, a.z + b.z)
  }

  function Sub(a: Vec3, b: Vec3): Vec3 {
    Vec3(a.x - b.x, a.y - b.y, a.z - b.z)
  }

  function Scale(a: Vec3, k: real): Vec3 {
    Vec3(a.x * k, a.y * k, a.z * k)
  }

  function Dot(a: Vec3, b: Vec3): real {
    a.x * b.x + a.y * b.y + a.z * b.z
  }

  function Cross(a: Vec3, b: Vec3): Vec3 {
    Vec3(a.y * b.z - a.z * b.y, a.z * b.x - a.x * b.z, a.x * b.y - a.y * b.x)
  }

  function LengthSq(a: Vec3): real {
    Dot(a, a)
  }

  function Abs(r: real): real {
    if r < 0.0 then -r else r
  }

  function Min(a: int, b: int): int {
    if a <= b then a else b
  }

  function Max(a: int, b: int): int {
    if a >= b then a else b
  }

  /** `Math.PI` as JavaScript prints it: the shortest decimal that reads
      back as the double nearest pi, not that double's exact value. */
  const PI: real := 3.141592653589793

  /** `MathUtils.degToRad`. */
  function DegToRad(degrees: real): real {
    degrees * (PI / 180.0)
  }

  /** What the measurement code relies on from `Vector3.distanceTo`: the
      distance is non-negative and its square is the squared length of the
      difference. */
  ghost predicate IsEuclidean(dist: (Vec3, Vec3) -> real) {
    forall a, b :: dist(a, b) >= 0.0 && dist(a, b) * dist(a, b) == LengthSq(Sub(a, b))
  }

  /** What the measurement code relies on from `Vector3.angleTo` (an inverse
      cosine of the normalized dot product): the angle lies in [0, PI], and
      between two non-zero vectors it is a right angle exactly when their dot
      product is zero. */
  ghost predicate IsAngleTo(angleTo: (Vec3, Vec3) -> real) {
    && (forall u, v :: 0.0 <= angleTo(u, v) <= PI)
    && (forall u, v :: u != Origin && v != Origin ==> (angleTo(u, v) == PI / 2.0 <==> Dot(u, v) == 0.0))
  }

  /** An RGB colour with channels in [0, 1]. */
  datatype Color = Color(r: real, g: real, b: real)

  /** `new Color("red")`. */
  const Red: Color := Color(1.0, 0.0, 0.0)

  /** One rotation about a world-space axis, in radians. */
  datatype AxisAngle = AxisAngle(axis: Vec3, angle: real)

  /** An object's local pose: its position, and the world-axis rotations
      applied to it since its rotation was last set to zero, oldest first.
      Rotations are kept as a record rather than composed into a quaternion. */
  datatype Transform = Transform(position: Vec3, rotations: seq<AxisAngle>)

  /** Position (0, 0, 0) and rotation (0, 0, 0). */
  const Identity: Transform := Transform(Origin, [])
}

=== FILE: gesture.dfy ===
/** The pointer-gesture machine of the Three component (three.component.ts):
    the pressed button, the press and current positions in normalized device
    coordinates and the object picked at the press, stepped by pointer-down,
    pointer-move and pointer-up. A step returns the event it emits; what the
    listeners and the built-in handlers then do with it is modelled in the
    Three and ModelViewer modules. Picking is an oracle: `sceneAt(p)` and
    `rootAt(p)` are the hits, nearest first, of a ray through `p` into the
    whole scene and into the root object. */
module Gesture {
  import opened Wrappers
  import opened Geometry
  import opened Enums
  import opened Scene
  import opened ThreeUtils
  import opened Events

  /** `Number.EPSILON`, 2^-52. */
  const EPSILON: real := 1.0 / 4503599627370496.0

  datatype Pointer = Pointer(
    button: Option<MouseButton>,
    clickPosition: Vec2,
    mousePosition: Vec2,
    selected: Option<Node>)

  /** Both positions start as (0, 0), with no button and no selection. */
  const Initial: Pointer := Pointer(None, Origin2, Origin2, None)

  /** The displacement test of `isDragging` and `onPointerMove`: either
      coordinate moved by more than `EPSILON`. */
  predicate Displaced(from: Vec2, to: Vec2) {
    Abs(to.x - from.x) > EPSILON || Abs(to.y - from.y) > EPSILON
  }

  /** `isDragging`. */
  function IsDragging(s: Pointer): (b: bool)
    ensures s.button.None? ==> !b
    ensures s.button.Some? ==> (b <==> !NearBox(s.clickPosition, s.mousePosition))
  {
    s.button.Some? && Displaced(s.clickPosition, s.mousePosition)
  }

  /** The closed square of half-width `EPSILON` around `c`. */
  predicate NearBox(c: Vec2, p: Vec2) {
    c.x - EPSILON <= p.x <= c.x + EPSILON && c.y - EPSILON <= p.y <= c.y + EPSILON
  }

  /** `onPointerDown`: records the button, picks at the current position and
      makes it the press position, so a fresh press is never a drag. */
  function PointerDown(s: Pointer, button: MouseButton, sceneAt: Vec2 -> seq<Hit>): (r: Pointer)
    ensures r.button == Some(button)
    ensures r.clickPosition == s.mousePosition && r.mousePosition == s.mousePosition
    ensures r.selected.None? <==> sceneAt(s.mousePosition) == []
    ensures r.selected.Some? ==> r.selected.value == sceneAt(s.mousePosition)[0].obj
    ensures !IsDragging(r)
  {
    Pointer(Some(button), s.mousePosition, s.mousePosition, FocusedObject(sceneAt(s.mousePosition)))
  }

  datatype MoveResult = MoveResult(pointer: Pointer, drag: Option<DragEvent>)

  /** `onPointerMove`. `ndc` is the pointer position mapped into the
      container (`None` when there is no container, which leaves the
      position as it was) and `movement` the event's raw `movementX/Y`.
      Without a button the press position follows the cursor; with one, a
      drag event is emitted exactly when the cursor is displaced from the
      press position. */
  function PointerMove(s: Pointer, ndc: Option<Vec2>, movement: Vec2): (r: MoveResult)
    ensures r.pointer.button == s.button && r.pointer.selected == s.selected
    ensures ndc.Some? ==> r.pointer.mousePosition == ndc.value
    ensures ndc.None? ==> r.pointer.mousePosition == s.mousePosition
    ensures s.button.None? ==> r.drag.None? && r.pointer.clickPosition == r.pointer.mousePosition
    ensures s.button.Some? ==> r.pointer.clickPosition == s.clickPosition
    ensures r.drag.Some? <==> IsDragging(r.pointer)
    ensures r.drag.Some? ==>
              && r.drag.value == NewDragEvent(movement, s.clickPosition, r.pointer.mousePosition, s.button.value, s.selected)
              && !r.drag.value.handled
  {
    var mouse := ndc.GetOr(s.mousePosition);
    if s.button.Some? then
      var moved := s.(mousePosition := mouse);
      if Displaced(s.clickPosition, mouse) then
        MoveResult(moved, Some(NewDragEvent(movement, s.clickPosition, mouse, s.button.value, s.selected)))
      else
        MoveResult(moved, None)
    else
      MoveResult(s.(mousePosition := mouse, clickPosition := mouse), None)
  }

  datatype UpResult = UpResult(pointer: Pointer, click: Option<ClickEvent>)

  /** `onPointerUp`: a click is emitted only for a pressed, undisplaced
      pointer whose ray into the root strikes something; it carries the
      button, the object picked at the press and the nearest hit point. The
      button is released in every case. */
  function PointerUp(s: Pointer, rootAt: Vec2 -> seq<Hit>): (r: UpResult)
    ensures r.pointer == s.(button := None)
    ensures r.click.Some? <==> s.button.Some? && !IsDragging(s) && rootAt(s.mousePosition) != []
    ensures r.click.Some? ==>
              && r.click.value.button == s.button.value
              && r.click.value.selectedObject == s.selected
              && r.click.value.worldIntersectionPoint == Some(rootAt(s.mousePosition)[0].point)
              && r.click.value.eventType == CLICK_EVENT_TYPE
              && !r.click.value.handled
  {
    var released := s.(button := None);
    if s.button.Some? && !IsDragging(s) then
      var hits := rootAt(s.mousePosition);
      if |hits| > 0 then
        UpResult(released, Some(NewClickEvent(s.button.value, s.selected, Some(hits[0].point), None)))
      else
        UpResult(released, None)
    else
      UpResult(released, None)
  }

  /** The container's placement and size in client pixels. */
  datatype Container = Container(offsetLeft: real, offsetTop: real, clientWidth: real, clientHeight: real)

  /** `onPointerMove`'s mapping of client coordinates into the container:
      x from -1 at the left edge to 1 at the right, y from 1 at the top to -1
      at the bottom. */
  function ClientToNDC(c: Container, clientX: real, clientY: real): (p: Vec2)
    requires c.clientWidth > 0.0 && c.clientHeight > 0.0
    ensures IsNDC(p) <==>
              && c.offsetLeft <= clientX <= c.offsetLeft + c.clientWidth
              && c.offsetTop <= clientY <= c.offsetTop + c.clientHeight
  {
    UnitSpan(clientX - c.offsetLeft, c.clientWidth);
    UnitSpan(clientY - c.offsetTop, c.clientHeight);
    Vec2(((clientX - c.offsetLeft) / c.clientWidth) * 2.0 - 1.0,
         -((clientY - c.offsetTop) / c.clientHeight) * 2.0 + 1.0)
  }

  /** An offset lies within a span exactly when its doubled fraction of the
      span, shifted by one, lies in [-1, 1]. */
  lemma UnitSpan(t: real, w: real)
    requires w > 0.0
    ensures -1.0 <= (t / w) * 2.0 - 1.0 <= 1.0 <==> 0.0 <= t <= w
    ensures -1.0 <= -(t / w) * 2.0 + 1.0 <= 1.0 <==> 0.0 <= t <= w
  {
    var f := t / w;
    assert t == f * w;
    assert 0.0 <= f <= 1.0 <==> 0.0 <= t <= w;
  }

  /** One raw input of a trace. */
  datatype Input = Down(button: MouseButton) | Move(ndc: Option<Vec2>, movement: Vec2) | Up

  /** One event a trace emits. */
  datatype Output = Drag(drag: DragEvent) | Click(click: ClickEvent)

  datatype RunResult = RunResult(pointer: Pointer, outputs: seq<Output>)

  /** One input, and the events it emits. */
  function Step(s: Pointer, i: Input, sceneAt: Vec2 -> seq<Hit>, rootAt: Vec2 -> seq<Hit>): RunResult {
    match i
    case Down(b) => RunResult(PointerDown(s, b, sceneAt), [])
    case Move(ndc, movement) =>
      var m := PointerMove(s, ndc, movement);
      RunResult(m.pointer, if m.drag.Some? then [Drag(m.drag.value)] else [])
    case Up =>
      var u := PointerUp(s, rootAt);
      RunResult(u.pointer, if u.click.Some? then [Click(u.click.value)] else [])
  }

  /** A whole trace of inputs, in order. */
  function Run(s: Pointer, ins: seq<Input>, sceneAt: Vec2 -> seq<Hit>, rootAt: Vec2 -> seq<Hit>): RunResult
    decreases |ins|
  {
    if ins == [] then RunResult(s, [])
    else
      var first := Step(s, ins[0], sceneAt, rootAt);
      var rest := Run(first.pointer, ins[1..], sceneAt, rootAt);
      RunResult(rest.pointer, first.outputs + rest.outputs)
  }

  function Drags(out: seq<Output>): nat {
    if out == [] then 0 else (if out[0].Drag? then 1 else 0) + Drags(out[1..])
  }

  function Clicks(out: seq<Output>): nat {
    if out == [] then 0 else (if out[0].Click? then 1 else 0) + Clicks(out[1..])
  }

  lemma {:induction false} CountsAppend(a: seq<Output>, b: seq<Output>)
    ensures Drags(a + b) == Drags(a) + Drags(b)
    ensures Clicks(a + b) == Clicks(a) + Clicks(b)
  {
    if a != [] {
      assert (a + b)[1..] == a[1..] + b;
      CountsAppend(a[1..], b);
    } else {
      assert a + b == b;
    }
  }

  /** Running two traces one after the other is running their
      concatenation. */
  lemma {:induction false} RunAppend(s: Pointer, a: seq<Input>, b: seq<Input>, sceneAt: Vec2 -> seq<Hit>, rootAt: Vec2 -> seq<Hit>)
    ensures var ra := Run(s, a, sceneAt, rootAt);
      var rb := Run(ra.pointer, b, sceneAt, rootAt);
      Run(s, a + b, sceneAt, rootAt) == RunResult(rb.pointer, ra.outputs + rb.outputs)
    decreases |a|
  {
    if a == [] {
      assert a + b == b;
    } else {
      assert (a + b)[1..] == a[1..] + b;
      var first := Step(s, a[0], sceneAt, rootAt);
      RunAppend(first.pointer, a[1..], b, sceneAt, rootAt);
    }
  }

  predicate AllMoves(ins: seq<Input>) {
    forall i :: 0 <= i < |ins| ==> ins[i].Move?
  }

  /** The cursor positions after each move of a run of moves, starting from
      `start`. */
  function Track(start: Vec2, ins: seq<Input>): (r: seq<Vec2>)
    requires AllMoves(ins)
    ensures |r| == |ins|
    decreases |ins|
  {
    if ins == [] then []
    else
      var p := ins[0].ndc.GetOr(start);
      [p] + Track(p, ins[1..])
  }

  /** The cursor position after a run of moves. */
  function LastOf(start: Vec2, ps: seq<Vec2>): Vec2 {
    if ps == [] then start else ps[|ps| - 1]
  }

  /** How many of the positions are displaced from `press`. */
  function CountDisplaced(press: Vec2, ps: seq<Vec2>): (n: nat)
    ensures n <= |ps|
  {
    if ps == [] then 0 else (if Displaced(press, ps[0]) then 1 else 0) + CountDisplaced(press, ps[1..])
  }

  /** While a button is held, moves emit no click, and emit one drag for
      each position displaced from the press point; the button, press point
      and selection are kept and the cursor ends at the last position. */
  lemma {:induction false} PressedMoves(s: Pointer, ins: seq<Input>, sceneAt: Vec2 -> seq<Hit>, rootAt: Vec2 -> seq<Hit>)
    requires s.button.Some? && AllMoves(ins)
    ensures var r := Run(s, ins, sceneAt, rootAt);
      && r.pointer == s.(mousePosition := LastOf(s.mousePosition, Track(s.mousePosition, ins)))
      && Clicks(r.outputs) == 0
      && Drags(r.outputs) == CountDisplaced(s.clickPosition, Track(s.mousePosition, ins))
    decreases |ins|
  {
    if ins != [] {
      var first := Step(s, ins[0], sceneAt, rootAt);
      assert AllMoves(ins[1..]) by {
        forall i | 0 <= i < |ins[1..]| ensures ins[1..][i].Move? {
          assert ins[1..][i] == ins[i + 1];
        }
      }
      PressedMoves(first.pointer, ins[1..], sceneAt, rootAt);
      var rest := Run(first.pointer, ins[1..], sceneAt, rootAt);
      CountsAppend(first.outputs, rest.outputs);
      var t := Track(s.mousePosition, ins);
      assert t[1..] == Track(first.pointer.mousePosition, ins[1..]);
      assert LastOf(s.mousePosition, t) == LastOf(first.pointer.mousePosition, t[1..]);
    }
  }

  /** With no button held, moves emit nothing and the press position keeps
      following the cursor. */
  lemma {:induction false} IdleMoves(s: Pointer, ins: seq<Input>, sceneAt: Vec2 -> seq<Hit>, rootAt: Vec2 -> seq<Hit>)
    requires s.button.None? && AllMoves(ins) && ins != []
    ensures var r := Run(s, ins, sceneAt, rootAt);
      && r.outputs == []
      && r.pointer.button.None? && r.pointer.selected == s.selected
      && r.pointer.clickPosition == r.pointer.mousePosition
      && r.pointer.mousePosition == LastOf(s.mousePosition, Track(s.mousePosition, ins))
    decreases |ins|
  {
    var first := Step(s, ins[0], sceneAt, rootAt);
    if |ins| > 1 {
      assert AllMoves(ins[1..]) by {
        forall i | 0 <= i < |ins[1..]| ensures ins[1..][i].Move? {
          assert ins[1..][i] == ins[i + 1];
        }
      }
      IdleMoves(first.pointer, ins[1..], sceneAt, rootAt);
      var t := Track(s.mousePosition, ins);
      assert t[1..] == Track(first.pointer.mousePosition, ins[1..]);
    }
  }

  lemma {:induction false} NoneDisplaced(press: Vec2, ps: seq<Vec2>)
    requires forall i :: 0 <= i < |ps| ==> !Displaced(press, ps[i])
    ensures CountDisplaced(press, ps) == 0
  {
    if ps != [] {
      NoneDisplaced(press, ps[1..]);
    }
  }

  lemma {:induction false} LastDisplaced(press: Vec2, ps: seq<Vec2>)
    requires ps != [] && Displaced(press, ps[|ps| - 1])
    ensures CountDisplaced(press, ps) >= 1
  {
    if |ps| > 1 {
      LastDisplaced(press, ps[1..]);
    }
  }

  /** A gesture: a press, then moves, then a release. */
  function Gesture(b: MouseButton, moves: seq<Input>): seq<Input> {
    [Down(b)] + moves + [Up]
  }

  /** Running a gesture from rest: the press point is the cursor position
      at the press, every displaced position emits a drag, and the release
      clicks exactly when the final position is undisplaced and its ray
      strikes the root. */
  lemma GestureOutputs(s: Pointer, b: MouseButton, moves: seq<Input>, sceneAt: Vec2 -> seq<Hit>, rootAt: Vec2 -> seq<Hit>)
    requires AllMoves(moves)
    ensures var r := Run(s, Gesture(b, moves), sceneAt, rootAt);
      var t := Track(s.mousePosition, moves);
      var last := LastOf(s.mousePosition, t);
      && r.pointer.button.None?
      && r.pointer.mousePosition == last
      && Drags(r.outputs) == CountDisplaced(s.mousePosition, t)
      && Clicks(r.outputs) == (if !Displaced(s.mousePosition, last) && rootAt(last) != [] then 1 else 0)
  {
    var pressed := PointerDown(s, b, sceneAt);
    RunAppend(s, [Down(b)], moves, sceneAt, rootAt);
    RunAppend(s, [Down(b)] + moves, [Up], sceneAt, rootAt);
    assert Run(s, [Down(b)], sceneAt, rootAt) == RunResult(pressed, []);
    PressedMoves(pressed, moves, sceneAt, rootAt);
    var rm := Run(pressed, moves, sceneAt, rootAt);
    var ru := Run(rm.pointer, [Up], sceneAt, rootAt);
    assert ru == Step(rm.pointer, Up, sceneAt, rootAt);
    assert Drags(ru.outputs) == 0;
    assert [] + rm.outputs == rm.outputs;
    CountsAppend(rm.outputs, ru.outputs);
  }

  /** A gesture that never leaves the epsilon square of its press point
      emits no drag, and exactly one click when the release ray strikes the
      root (none otherwise). */
  lemma StillGestureClicksOnce(s: Pointer, b: MouseButton, moves: seq<Input>, sceneAt: Vec2 -> seq<Hit>, rootAt: Vec2 -> seq<Hit>)
    requires AllMoves(moves)
    requires forall i :: 0 <= i < |moves| ==> !Displaced(s.mousePosition, Track(s.mousePosition, moves)[i])
    ensures var r := Run(s, Gesture(b, moves), sceneAt, rootAt);
      && Drags(r.outputs) == 0
      && (Clicks(r.outputs) == 1 <==> rootAt(r.pointer.mousePosition) != [])
      && Clicks(r.outputs) <= 1
  {
    GestureOutputs(s, b, moves, sceneAt, rootAt);
    NoneDisplaced(s.mousePosition, Track(s.mousePosition, moves));
  }

  /** A gesture released away from its press point emits no click and at
      least one drag. */
  lemma DisplacedReleaseDrags(s: Pointer, b: MouseButton, moves: seq<Input>, sceneAt: Vec2 -> seq<Hit>, rootAt: Vec2 -> seq<Hit>)
    requires AllMoves(moves)
    requires Displaced(s.mousePosition, LastOf(s.mousePosition, Track(s.mousePosition, moves)))
    ensures var r := Run(s, Gesture(b, moves), sceneAt, rootAt);
      Clicks(r.outputs) == 0 && Drags(r.outputs) >= 1
  {
    GestureOutputs(s, b, moves, sceneAt, rootAt);
    LastDisplaced(s.mousePosition, Track(s.mousePosition, moves));
  }

  /** The click/drag test is made only from the release position: a press at
      the origin, a move to (0.5, 0) and a move back to the origin, released
      over the model, emits one drag and then one click. */
  lemma WanderAndReturn(sceneAt: Vec2 -> seq<Hit>, rootAt: Vec2 -> seq<Hit>)
    requires rootAt(Origin2) != []
    ensures var r := Run(Initial, Gesture(Left, [Move(Some(Vec2(0.5, 0.0)), Vec2(1.0, 0.0)), Move(Some(Origin2), Vec2(-1.0, 0.0))]), sceneAt, rootAt);
      Drags(r.outputs) == 1 && Clicks(r.outputs) == 1
  {
    var moves := [Move(Some(Vec2(0.5, 0.0)), Vec2(1.0, 0.0)), Move(Some(Origin2), Vec2(-1.0, 0.0))];
    GestureOutputs(Initial, Left, moves, sceneAt, rootAt);
    var t := Track(Origin2, moves);
    assert t == [Vec2(0.5, 0.0), Origin2];
    assert Displaced(Origin2, t[0]) && !Displaced(Origin2, t[1]);
    assert CountDisplaced(Origin2, t) == 1 + CountDisplaced(Origin2, t[1..]);
    assert CountDisplaced(Origin2, t[1..]) == 0 + CountDisplaced(Origin2, t[2..]);
  }
}

=== FILE: measurement.dfy ===
/** The measurement base class (measurement.ts): an ordered list of picked
    points under an optional limit, and the two operations every variant
    shares. The variant is a tag; each variant's module supplies its
    constructor and its value. */
module Measurements {
  import opened Wrappers
  import opened Geometry
  import opened Scene
  import opened MeasurementPoints

  datatype MeasurementKind = Distance | Angle

  datatype Measurement = Measurement(kind: MeasurementKind, points: seq<MeasurementPoint>, pointLimit: int)

  /** The base constructor: no points, and limit -1, which means unlimited. */
  function NewMeasurement(kind: MeasurementKind): (m: Measurement)
    ensures m.kind == kind && m.points == [] && m.pointLimit == -1
    ensures !HasPointLimit(m)
  {
    Measurement(kind, [], -1)
  }

  /** `hasPointLimit`: only a positive limit is a cap; the base default -1,
      and zero, mean no cap. */
  function HasPointLimit(m: Measurement): (b: bool)
    ensures b <==> m.pointLimit >= 1
    ensures m.pointLimit == -1 ==> !b
  {
    m.pointLimit > 0
  }

  /** A limited measurement holds at most `pointLimit` points. */
  ghost predicate WithinLimit(m: Measurement) {
    HasPointLimit(m) ==> |m.points| <= m.pointLimit
  }

  /** What `setNextPoint` returns, and the root it leaves behind when it was
      given the Three component as context. */
  datatype SetPointResult = SetPointResult(measurement: Measurement, accepted: bool, context: Option<Root>)

  /** `setNextPoint(point, threeContext?)`. A full limited measurement
      refuses the point and changes nothing. Otherwise one new point with id
      `newId` is appended and, with a context, its marker is attached to the
      root. `attachToRoot` keeps the marker's world pose, so the stored
      position is the root-local image `toLocal(point)`; without a context
      it is `point` itself. */
  function SetNextPoint(m: Measurement, point: Vec3, newId: NodeId, context: Option<Root>, toLocal: Vec3 -> Vec3): (r: SetPointResult)
    ensures r.accepted <==> !(HasPointLimit(m) && |m.points| == m.pointLimit)
    ensures !r.accepted ==> r.measurement == m && r.context == context
    ensures r.accepted ==> r.measurement.kind == m.kind && r.measurement.pointLimit == m.pointLimit
    ensures r.accepted ==> var stored := if context.Some? then toLocal(point) else point;
      r.measurement.points == m.points + [NewMeasurementPoint(newId, stored, None, None)]
    ensures r.accepted && context.Some? ==>
      r.context == Some(AttachToRoot(context.value, MarkerNode(r.measurement.points[|m.points|])))
    ensures context.None? ==> r.context == None
    ensures WithinLimit(m) ==> WithinLimit(r.measurement)
  {
    if HasPointLimit(m) && |m.points| == m.pointLimit then
      SetPointResult(m, false, context)
    else
      var newPoint := NewMeasurementPoint(newId, if context.Some? then toLocal(point) else point, None, None);
      var m' := m.(points := m.points + [newPoint]);
      var context' := if context.Some? then Some(AttachToRoot(context.value, MarkerNode(newPoint))) else None;
      SetPointResult(m', true, context')
  }

  /** The loop of `clear`: `removeFromScene` for each point in order. */
  function RemoveMarkers(root: Root, ps: seq<MeasurementPoint>): (r: Root)
    decreases ps
    ensures r.transform == root.transform
    ensures UniqueIds(root.children) ==> UniqueIds(r.children) && r.children == Without(root.children, PointIds(ps))
  {
    if ps == [] then
      assert PointIds(ps) == {};
      WithoutAbsent(root.children, {});
      root
    else
      assert PointIds(ps) == {ps[0].id} + PointIds(ps[1..]) by {
        assert forall i :: 0 <= i < |ps| - 1 ==> ps[1..][i] == ps[i + 1];
        assert forall i :: 0 <= i < |ps| ==> ps[i].id in {ps[0].id} + PointIds(ps[1..]) by {
          forall i | 0 <= i < |ps| ensures ps[i].id in {ps[0].id} + PointIds(ps[1..]) {
            if i > 0 { assert ps[1..][i - 1] == ps[i]; }
          }
        }
      }
      var next := RemoveFromScene(root, ps[0].id);
      WithoutWithout(root.children, {ps[0].id}, PointIds(ps[1..]));
      RemoveMarkers(next, ps[1..])
  }

  /** `clear(threeContext?)`: the points are always dropped; with a context
      every former marker is detached from the root, without one the
      markers stay where they are. */
  function Clear(m: Measurement, context: Option<Root>): (r: (Measurement, Option<Root>))
    ensures r.0 == m.(points := [])
    ensures context.None? ==> r.1 == None
    ensures context.Some? ==> r.1.Some? && r.1.value.transform == context.value.transform
    ensures context.Some? && UniqueIds(context.value.children) ==>
      UniqueIds(r.1.value.children) && r.1.value.children == Without(context.value.children, PointIds(m.points))
  {
    var context' := if context.Some? then Some(RemoveMarkers(context.value, m.points)) else None;
    (m.(points := []), context')
  }

  lemma {:induction false} DistinctPointIdsCount(ps: seq<MeasurementPoint>)
    requires DistinctPoints(ps)
    ensures |PointIds(ps)| == |ps|
  {
    if ps != [] {
      assert forall i :: 0 <= i < |ps| - 1 ==> ps[1..][i] == ps[i + 1];
      DistinctPointIdsCount(ps[1..]);
      assert PointIds(ps) == {ps[0].id} + PointIds(ps[1..]) by {
        forall i | 0 <= i < |ps| ensures ps[i].id in {ps[0].id} + PointIds(ps[1..]) {
          if i > 0 { assert ps[1..][i - 1] == ps[i]; }
        }
      }
      assert ps[0].id !in PointIds(ps[1..]);
    }
  }

  /** `clear` on N points whose markers are all children of the root
      detaches exactly N children. */
  lemma ClearDetachesEachMarker(m: Measurement, root: Root)
    requires UniqueIds(root.children) && DistinctPoints(m.points)
    requires PointIds(m.points) <= Ids(root.children)
    ensures var r := Clear(m, Some(root));
      r.0.points == [] && |r.1.value.children| == |root.children| - |m.points|
      && Ids(r.1.value.children) == Ids(root.children) - PointIds(m.points)
  {
    WithoutLength(root.children, PointIds(m.points));
    WithoutIds(root.children, PointIds(m.points));
    DistinctPointIdsCount(m.points);
    assert Ids(root.children) * PointIds(m.points) == PointIds(m.points);
  }

  /** Repeated `setNextPoint` without a context, the i-th offered point
      getting id `firstId + i`. */
  function Feed(m: Measurement, pts: seq<Vec3>, firstId: NodeId): Measurement
    decreases pts
  {
    if pts == [] then m
    else Feed(SetNextPoint(m, pts[0], firstId, None, p => p).measurement, pts[1..], firstId + 1)
  }

  /** A limited measurement keeps the first points offered until it is full
      and ignores the rest; an unlimited one keeps every point. The kind and
      limit never change. */
  lemma {:induction false} FeedKeepsPrefix(m: Measurement, pts: seq<Vec3>, firstId: NodeId)
    requires WithinLimit(m)
    decreases pts
    ensures var m' := Feed(m, pts, firstId);
      && m'.kind == m.kind && m'.pointLimit == m.pointLimit
      && WithinLimit(m')
      && |m'.points| == (if HasPointLimit(m) then Min(|m.points| + |pts|, m.pointLimit) else |m.points| + |pts|)
      && Positions(m'.points) == (Positions(m.points) + pts)[..|m'.points|]
  {
    if pts != [] {
      var step := SetNextPoint(m, pts[0], firstId, None, p => p);
      FeedKeepsPrefix(step.measurement, pts[1..], firstId + 1);
      var m' := Feed(m, pts, firstId);
      assert m' == Feed(step.measurement, pts[1..], firstId + 1);
      if step.accepted {
        assert Positions(step.measurement.points) == Positions(m.points) + [pts[0]];
        assert Positions(step.measurement.points) + pts[1..] == Positions(m.points) + pts;
      } else {
        assert |m.points| == m.pointLimit;
        FeedFull(m, pts[1..], firstId + 1);
        assert (Positions(m.points) + pts)[..|m.points|] == Positions(m.points);
      }
    } else {
      assert Positions(m.points) + pts == Positions(m.points);
    }
  }

  /** A full limited measurement ignores every further point. */
  lemma {:induction false} FeedFull(m: Measurement, pts: seq<Vec3>, firstId: NodeId)
    requires HasPointLimit(m) && |m.points| == m.pointLimit
    ensures Feed(m, pts, firstId) == m
  {
    if pts != [] {
      FeedFull(m, pts[1..], firstId + 1);
    }
  }
}

=== FILE: measurement_point.dfy ===
/** A picked point of a measurement and its visual marker
    (measurement-point.ts). In the source the point is itself the marker
    mesh; here the point is a record and `MarkerNode` is its place in the
    scene tree, sharing its id. */
module MeasurementPoints {
  import opened Wrappers
  import opened Geometry
  import opened Scene

  const DEFAULT_NAME: string := "measurementPoint"
  const MARKER_RADIUS: real := 0.025
  const MARKER_SEGMENTS: nat := 8

  /** `SphereGeometry(radius, widthSegments, heightSegments)`. */
  datatype Sphere = Sphere(radius: real, widthSegments: nat, heightSegments: nat)

  datatype MeasurementPoint = MeasurementPoint(
    id: NodeId,
    position: Vec3,
    name: string,
    color: Color,
    geometry: Sphere,
    materialColor: Color)

  /** `new MeasurementPoint(position, name?, color?)`: the position's three
      components are copied into the marker, the name defaults to
      "measurementPoint", the colour defaults to red and is both stored and
      given to the marker's material, and the marker is a small sphere. */
  function NewMeasurementPoint(id: NodeId, position: Vec3, name: Option<string>, color: Option<Color>): (p: MeasurementPoint)
    ensures p.id == id
    ensures p.position.x == position.x && p.position.y == position.y && p.position.z == position.z
    ensures name.None? ==> p.name == DEFAULT_NAME
    ensures name.Some? ==> p.name == name.value
    ensures color.None? ==> p.color == Red
    ensures color.Some? ==> p.color == color.value
    ensures p.materialColor == p.color
    ensures p.geometry == Sphere(0.025, 8, 8)
  {
    var c := color.GetOr(Red);
    MeasurementPoint(id, Vec3(position.x, position.y, position.z), name.GetOr(DEFAULT_NAME), c,
                     Sphere(MARKER_RADIUS, MARKER_SEGMENTS, MARKER_SEGMENTS), c)
  }

  /** The marker as a node of the scene tree: a leaf mesh of kind `Marker`. */
  function MarkerNode(p: MeasurementPoint): (n: Node)
    ensures n.id == p.id && n.kind == Marker && n.name == p.name && n.children == []
  {
    Node(p.id, Marker, p.name, [])
  }

  function Positions(ps: seq<MeasurementPoint>): (r: seq<Vec3>)
    ensures |r| == |ps|
    ensures forall i :: 0 <= i < |ps| ==> r[i] == ps[i].position
  {
    seq(|ps|, i requires 0 <= i < |ps| => ps[i].position)
  }

  function PointIds(ps: seq<MeasurementPoint>): set<NodeId> {
    set i | 0 <= i < |ps| :: ps[i].id
  }

  /** No two points share a marker. */
  ghost predicate DistinctPoints(ps: seq<MeasurementPoint>) {
    forall i, j :: 0 <= i < j < |ps| ==> ps[i].id != ps[j].id
  }

  /** Appending a point adds its id; a point with a new id keeps the ids
      distinct. */
  lemma AppendPoint(ps: seq<MeasurementPoint>, p: MeasurementPoint)
    ensures PointIds(ps + [p]) == PointIds(ps) + {p.id}
    ensures DistinctPoints(ps) && p.id !in PointIds(ps) ==> DistinctPoints(ps + [p])
  {
    var qs := ps + [p];
    forall id | id in PointIds(qs) ensures id in PointIds(ps) + {p.id} {
      var i :| 0 <= i < |qs| && qs[i].id == id;
      if i < |ps| { assert qs[i] == ps[i]; }
    }
    forall id | id in PointIds(ps) ensures id in PointIds(qs) {
      var i :| 0 <= i < |ps| && ps[i].id == id;
      assert qs[i] == ps[i];
    }
    assert qs[|ps|] == p;
    if DistinctPoints(ps) && p.id !in PointIds(ps) {
      forall i, j | 0 <= i < j < |qs| ensures qs[i].id != qs[j].id {
        assert qs[i] == ps[i];
        if j < |ps| { assert qs[j] == ps[j]; }
      }
    }
  }
}

=== FILE: model_viewer.dfy ===
/** The viewer controller (model-viewer.component.ts): the active
    measurement, the displayed model mesh, the cross-section slab and the
    commands and listeners that act on them through the Three component.
    The three.js computations it relies on (world/local conversion,
    unprojection, bounding boxes, the gizmo's screen position) are oracles
    bundled in `Oracles`; new scene objects take fresh ids from `nextId`. */
module ModelViewer {
  import opened Wrappers
  import opened Geometry
  import opened Enums
  import opened Scene
  import opened ThreeUtils
  import opened Events
  import opened MeasurementPoints
  import opened Measurements
  import opened DistanceMeasurements
  import opened AngleMeasurements
  import opened Gesture
  import opened Three

  /** `moveModel`'s step in world units. */
  const MOVE_STEP: real := 0.2

  /** The slab is the displayed mesh's width and height scaled by 1.2, and
      0.001 deep. */
  const SLAB_SCALE: real := 1.2
  const SLAB_DEPTH: real := 0.001

  /** The factor on the cross product in the z-sphere's turn. */
  const Z_TURN_FACTOR: real := 0.5

  const X_SPHERE: string := "xRotationSphere"
  const Y_SPHERE: string := "yRotationSphere"
  const Z_SPHERE: string := "zRotationSphere"

  /** The rotation gizmo `createRotationControl` builds: a group of three
      orbit groups, each holding an unnamed circle and a named sphere mesh.
      It is added to the scene, not to the root. */
  const RotationControl: Node :=
    Node(1, Plain, "", [
      Node(2, Plain, "", [Node(3, Plain, "", []), Node(4, Mesh, X_SPHERE, [])]),
      Node(5, Plain, "", [Node(6, Plain, "", []), Node(7, Mesh, Y_SPHERE, [])]),
      Node(8, Plain, "", [Node(9, Plain, "", []), Node(10, Mesh, Z_SPHERE, [])])])

  const MODEL_MESH_ID: NodeId := 0
  const FIRST_FREE_ID: NodeId := 11

  /** `crossSectionMesh`: the slab's node and its box size. */
  datatype Slab = Slab(mesh: Node, size: Vec3)

  datatype Viewer = Viewer(
    three: Option<Three>,
    measurement: Option<Measurement>,
    modelMesh: Node,
    slab: Option<Slab>,
    nextId: NodeId)

  /** The three.js computations the handlers use, for the scene as it
      stands: `toLocal` is the root's `worldToLocal`, `toWorld` the world
      position of a root child at a local position, `unproject` the world
      point under an NDC cursor at depth 0, `bounds` the size of an object's
      bounding box, and `controlScreen` the projected position of the
      rotation gizmo. */
  datatype Oracles = Oracles(
    toLocal: Vec3 -> Vec3,
    toWorld: Vec3 -> Vec3,
    unproject: Vec2 -> Vec3,
    bounds: Node -> Vec3,
    controlScreen: Vec2)

  /** The constructor: an empty model mesh, no measurement and no slab;
      `three` is the nested component, if there is one. */
  function NewViewer(three: Option<Three>): (v: Viewer)
    ensures v.measurement.None? && v.slab.None? && v.three == three
    ensures IsMesh(v.modelMesh) && v.modelMesh.children == []
  {
    Viewer(three, None, Node(MODEL_MESH_ID, Mesh, "", []), None, FIRST_FREE_ID)
  }

  /** Every id in the set was handed out before `n`. */
  ghost predicate Below(ids: set<NodeId>, n: NodeId) {
    forall id :: id in ids ==> id < n
  }

  /** The viewer's invariant: ids are fresh below `nextId`, the root never
      holds an object twice, the points of a measurement are distinct and
      within its limit, and while there is a scene every point's marker is a
      child of the root. */
  ghost predicate Valid(v: Viewer) {
    && v.modelMesh.id < v.nextId
    && (v.slab.Some? ==> v.slab.value.mesh.id < v.nextId)
    && (v.measurement.Some? ==>
          && DistinctPoints(v.measurement.value.points)
          && WithinLimit(v.measurement.value)
          && Below(PointIds(v.measurement.value.points), v.nextId))
    && (v.three.Some? ==>
          && UniqueIds(v.three.value.root.children)
          && Below(Ids(v.three.value.root.children), v.nextId))
    && (v.three.Some? && v.measurement.Some? ==>
          PointIds(v.measurement.value.points) <= Ids(v.three.value.root.children))
  }

  lemma NewViewerValid(three: Three)
    requires UniqueIds(three.root.children) && Below(Ids(three.root.children), FIRST_FREE_ID)
    ensures Valid(NewViewer(Some(three)))
  {
  }

  // ---------------------------------------------------------------------
  // Commands

  /** `moveModel`'s delta for a direction name. */
  function MoveDelta(direction: string): (d: Vec3)
    ensures direction == "up" ==> d == Vec3(0.0, MOVE_STEP, 0.0)
    ensures direction == "down" ==> d == Vec3(0.0, -MOVE_STEP, 0.0)
    ensures direction == "left" ==> d == Vec3(-MOVE_STEP, 0.0, 0.0)
    ensures direction == "right" ==> d == Vec3(MOVE_STEP, 0.0, 0.0)
    ensures direction !in {"up", "down", "left", "right"} ==> d == Origin
  {
    match direction
    case "up" => Vec3(0.0, MOVE_STEP, 0.0)
    case "down" => Vec3(0.0, -MOVE_STEP, 0.0)
    case "left" => Vec3(-MOVE_STEP, 0.0, 0.0)
    case "right" => Vec3(MOVE_STEP, 0.0, 0.0)
    case _ => Origin
  }

  /** `moveModel`: moves the root by the direction's delta, when there is a
      Three component. */
  function MoveModel(v: Viewer, direction: string): (r: Viewer)
    ensures v.three.None? ==> r == v
    ensures v.three.Some? ==>
              && r.three.Some?
              && r.three.value.root.transform.position == Add(v.three.value.root.transform.position, MoveDelta(direction))
              && r.three.value.root.transform.rotations == v.three.value.root.transform.rotations
              && r.three.value.root.children == v.three.value.root.children
              && r.three.value.(root := v.three.value.root) == v.three.value
              && r.(three := v.three) == v
  {
    if v.three.Some? then v.(three := Some(MoveRoot(v.three.value, MoveDelta(direction)))) else v
  }

  /** Opposite directions cancel, and an unknown direction leaves the view
      as it is. */
  lemma OppositeMovesCancel(v: Viewer, other: string)
    requires other !in {"up", "down", "left", "right"}
    ensures MoveModel(MoveModel(v, "up"), "down") == v
    ensures MoveModel(MoveModel(v, "left"), "right") == v
    ensures MoveModel(v, other) == v
  {
  }

  /** `zoom(direction)`: "in" and "out" zoom the camera; any other name does
      nothing. */
  function ZoomCommand(v: Viewer, direction: string): (r: Viewer)
    ensures v.three.None? || direction !in {"in", "out"} ==> r == v
    ensures v.three.Some? && direction == "in" ==> r == v.(three := Some(ZoomThree(v.three.value, In)))
    ensures v.three.Some? && direction == "out" ==> r == v.(three := Some(ZoomThree(v.three.value, Out)))
  {
    if v.three.Some? then
      match direction
      case "in" => v.(three := Some(ZoomThree(v.three.value, In)))
      case "out" => v.(three := Some(ZoomThree(v.three.value, Out)))
      case _ => v
    else v
  }

  /** `clearMeasurement`: only with both a measurement and a Three
      component, it clears the points' markers from the root, drops the
      measurement, and then removes and drops the slab if there is one. */
  function ClearMeasurement(v: Viewer): (r: Viewer)
    ensures !(v.measurement.Some? && v.three.Some?) ==> r == v
    ensures v.measurement.Some? && v.three.Some? ==>
              && r.measurement.None? && r.slab.None? && r.three.Some?
              && r.modelMesh == v.modelMesh && r.nextId == v.nextId
              && r.three.value.(root := v.three.value.root) == v.three.value
              && r.three.value.root.transform == v.three.value.root.transform
    ensures v.measurement.Some? && v.three.Some? && UniqueIds(v.three.value.root.children) ==>
              && UniqueIds(r.three.value.root.children)
              && r.three.value.root.children == Without(v.three.value.root.children, PointIds(v.measurement.value.points) + SlabIds(v.slab))
  {
    if v.measurement.Some? && v.three.Some? then
      var t := v.three.value;
      var cleared := Clear(v.measurement.value, Some(t.root)).1.value;
      var root := if v.slab.Some? then RemoveFromScene(cleared, v.slab.value.mesh.id) else cleared;
      ClearMeasurementRoot(v.measurement.value, t.root, v.slab);
      v.(three := Some(t.(root := root)), measurement := None, slab := None)
    else v
  }

  /** The id of the slab, if any. */
  function SlabIds(slab: Option<Slab>): set<NodeId> {
    if slab.Some? then {slab.value.mesh.id} else {}
  }

  lemma ClearMeasurementRoot(m: Measurement, root: Root, slab: Option<Slab>)
    ensures var cleared := Clear(m, Some(root)).1.value;
      var r := if slab.Some? then RemoveFromScene(cleared, slab.value.mesh.id) else cleared;
      && r.transform == root.transform
      && (UniqueIds(root.children) ==> UniqueIds(r.children) && r.children == Without(root.children, PointIds(m.points) + SlabIds(slab)))
  {
    var cleared := Clear(m, Some(root)).1.value;
    if UniqueIds(root.children) {
      if slab.Some? {
        WithoutWithout(root.children, PointIds(m.points), {slab.value.mesh.id});
      } else {
        assert PointIds(m.points) + SlabIds(slab) == PointIds(m.points);
      }
    }
  }

  /** Clearing a measurement in a valid viewer detaches exactly its
      markers and the slab, and keeps the viewer valid. */
  lemma ClearMeasurementKeepsValid(v: Viewer)
    requires Valid(v)
    ensures Valid(ClearMeasurement(v))
    ensures v.measurement.Some? && v.three.Some? ==>
              Ids(ClearMeasurement(v).three.value.root.children)
                == Ids(v.three.value.root.children) - PointIds(v.measurement.value.points) - SlabIds(v.slab)
  {
    if v.measurement.Some? && v.three.Some? {
      var cs := v.three.value.root.children;
      WithoutIds(cs, PointIds(v.measurement.value.points) + SlabIds(v.slab));
    }
  }

  /** `resetView`: clears the measurement, empties the root, resets its
      transform and attaches the model mesh again. */
  function ResetView(v: Viewer): (r: Viewer)
    ensures v.three.None? ==> r == v
    ensures v.three.Some? ==>
              && r.three.Some? && r.three.value.root == Root(Identity, [v.modelMesh])
              && r.three.value.(root := v.three.value.root) == v.three.value
              && r.measurement.None?
              && r.modelMesh == v.modelMesh && r.nextId == v.nextId
              && (v.measurement.None? ==> r.slab == v.slab)
              && (v.measurement.Some? ==> r.slab.None?)
  {
    var c := ClearMeasurement(v);
    if c.three.Some? then
      var t := ResetRoot(ClearThree(c.three.value));
      c.(three := Some(t.(root := AttachToRoot(t.root, c.modelMesh))))
    else c
  }

  lemma ResetViewKeepsValid(v: Viewer)
    requires Valid(v)
    ensures Valid(ResetView(v))
  {
    ClearMeasurementKeepsValid(v);
    if v.three.Some? {
      var r := ResetView(v);
      assert Ids(r.three.value.root.children) == {v.modelMesh.id};
    }
  }

  /** `takeDistanceMeasurement`: clears the old measurement and starts an
      empty distance measurement. */
  function TakeDistanceMeasurement(v: Viewer): (r: Viewer)
    ensures r.measurement == Some(NewDistanceMeasurement())
    ensures r.(measurement := None) == ClearMeasurement(v).(measurement := None)
  {
    ClearMeasurement(v).(measurement := Some(NewDistanceMeasurement()))
  }

  /** `takeAngleMeasurement`: clears the old measurement and starts an empty
      angle measurement. */
  function TakeAngleMeasurement(v: Viewer): (r: Viewer)
    ensures r.measurement == Some(NewAngleMeasurement())
    ensures r.(measurement := None) == ClearMeasurement(v).(measurement := None)
  {
    ClearMeasurement(v).(measurement := Some(NewAngleMeasurement()))
  }

  lemma TakeMeasurementKeepsValid(v: Viewer)
    requires Valid(v)
    ensures Valid(TakeDistanceMeasurement(v)) && Valid(TakeAngleMeasurement(v))
  {
    ClearMeasurementKeepsValid(v);
    assert PointIds([]) == {};
  }

  /** `addCrossSectionMesh`: with a Three component and a mesh under the
      root, a slab 1.2 times the mesh's width and height and 0.001 deep is
      recorded and attached to the root; otherwise nothing happens. The
      mesh used is the first in pre-order under the root. */
  function AddCrossSectionMesh(v: Viewer, bounds: Node -> Vec3): (r: Viewer)
    ensures v.three.None? || GetChildMeshIn(v.three.value.root.children).None? ==> r == v
    ensures v.three.Some? && GetChildMeshIn(v.three.value.root.children).Some? ==>
              var shown := GetChildMeshIn(v.three.value.root.children).value;
              && FirstMatch(PreOrderAll(v.three.value.root.children), IsMesh) == Some(shown)
              && r.slab.Some? && r.slab.value.mesh.id == v.nextId && IsMesh(r.slab.value.mesh)
              && r.slab.value.size == Vec3(SLAB_SCALE * bounds(shown).x, SLAB_SCALE * bounds(shown).y, SLAB_DEPTH)
              && r.three.Some? && r.three.value.root == AttachToRoot(v.three.value.root, r.slab.value.mesh)
              && r.measurement == v.measurement && r.nextId == v.nextId + 1
  {
    if v.three.Some? then
      var t := v.three.value;
      match GetChildMeshIn(t.root.children)
      case None => v
      case Some(shown) =>
        GetChildMeshInIsFindInChildren(t.root.children);
        FindInChildrenIsFirstMatch(t.root.children, IsMesh);
        var size := bounds(shown);
        var slab := Slab(Node(v.nextId, Mesh, "", []), Vec3(SLAB_SCALE * size.x, SLAB_SCALE * size.y, SLAB_DEPTH));
        v.(slab := Some(slab), three := Some(t.(root := AttachToRoot(t.root, slab.mesh))), nextId := v.nextId + 1)
    else v
  }

  lemma AddCrossSectionMeshKeepsValid(v: Viewer, bounds: Node -> Vec3)
    requires Valid(v)
    ensures Valid(AddCrossSectionMesh(v, bounds))
  {
  }

  /** The errors the viewer throws: `CSG.intersect` dereferencing a null
      mesh in the cross-section step, and the view initialising without a
      nested Three component. */
  datatype Fault = NullMeshArgument | MissingThreeComponent

  /** The state a command leaves the viewer in, and the exception it threw,
      if any. A throw rolls nothing back: the changes made before it stay. */
  datatype Outcome = Outcome(viewer: Viewer, thrown: Option<Fault>)

  /** `takeCrossSectionMeasurement` as written: the null check on the slab
      happens first, then `clearRoot`, then `clearMeasurement`, which drops
      the slab whenever a measurement is active, and only then is the slab
      handed to the intersection. */
  function TakeCrossSectionAsWritten(v: Viewer): (r: Outcome)
    ensures v.three.None? || GetChildMeshIn(v.three.value.root.children).None? || v.slab.None? ==> r == Outcome(v, None)
    ensures r.thrown.Some? ==> r.thrown == Some(NullMeshArgument) && r.viewer.three.Some? && r.viewer.three.value.root == EmptyRoot
  {
    if v.three.Some? then
      var shown := GetChildMeshIn(v.three.value.root.children);
      if shown.Some? && v.slab.Some? then
        var c := ClearMeasurement(v.(three := Some(ClearThree(v.three.value))));
        if c.slab.None? then Outcome(c, Some(NullMeshArgument))
        else
          var result := IntersectionMesh(shown.value, c.slab.value.mesh, c.nextId);
          var t := c.three.value;
          Outcome(c.(three := Some(t.(root := AttachToRoot(t.root, result))), nextId := c.nextId + 1), None)
      else Outcome(v, None)
    else Outcome(v, None)
  }

  /** With a measurement active, a displayed mesh and a slab, the step as
      written reaches the intersection with a null slab and throws. By then
      the root has been emptied, so the model is gone from view, and the
      measurement and the slab have been dropped. */
  lemma CrossSectionAsWrittenThrows(v: Viewer)
    requires v.three.Some? && v.measurement.Some? && v.slab.Some?
    requires GetChildMeshIn(v.three.value.root.children).Some?
    ensures var r := TakeCrossSectionAsWritten(v);
      && r.thrown == Some(NullMeshArgument)
      && r.viewer.three.Some? && r.viewer.three.value.root == EmptyRoot
      && r.viewer.three.value.(root := v.three.value.root) == v.three.value
      && r.viewer.measurement.None? && r.viewer.slab.None?
      && r.viewer.modelMesh == v.modelMesh && r.viewer.nextId == v.nextId
  {
  }

  /** The step as evidently intended: the slab is taken before the
      measurement is cleared, so the intersection always gets both meshes,
      and the root ends holding only the result, at the identity pose. */
  function TakeCrossSection(v: Viewer): (r: Viewer)
    ensures v.three.None? || GetChildMeshIn(v.three.value.root.children).None? || v.slab.None? ==> r == v
    ensures v.three.Some? && GetChildMeshIn(v.three.value.root.children).Some? && v.slab.Some? ==>
              && r.three.Some?
              && r.three.value.(root := v.three.value.root) == v.three.value
              && r.three.value.root.transform == Identity
              && |r.three.value.root.children| == 1
              && IsMesh(r.three.value.root.children[0])
              && r.three.value.root.children[0].id == v.nextId
              && r.measurement.None? && r.nextId == v.nextId + 1
              && r.modelMesh == v.modelMesh
              && (v.measurement.Some? ==> r.slab.None?)
              && (v.measurement.None? ==> r.slab == v.slab)
  {
    if v.three.Some? then
      var shown := GetChildMeshIn(v.three.value.root.children);
      if shown.Some? && v.slab.Some? then
        var slabMesh := v.slab.value.mesh;
        var c := ClearMeasurement(v.(three := Some(ClearThree(v.three.value))));
        var result := IntersectionMesh(shown.value, slabMesh, c.nextId);
        var t := c.three.value;
        v.(three := Some(t.(root := AttachToRoot(t.root, result))), measurement := None,
           slab := c.slab, nextId := c.nextId + 1)
      else v
    else v
  }

  /** Where the step as written does not throw, it agrees with the
      corrected one. */
  lemma CrossSectionAgrees(v: Viewer)
    ensures TakeCrossSectionAsWritten(v).thrown.None? ==> TakeCrossSectionAsWritten(v).viewer == TakeCrossSection(v)
    ensures v.measurement.None? ==> TakeCrossSectionAsWritten(v) == Outcome(TakeCrossSection(v), None)
  {
  }

  lemma TakeCrossSectionKeepsValid(v: Viewer)
    requires Valid(v)
    ensures Valid(TakeCrossSection(v))
  {
    var r := TakeCrossSection(v);
    if r != v {
      assert Ids(r.three.value.root.children) == {v.nextId};
    }
  }

  // ---------------------------------------------------------------------
  // Listeners

  /** `setNextMeasurementPoint`: forwards the point to the active
      measurement, with the Three component as context, when both exist.
      An accepted point takes the next fresh id. */
  function SetNextMeasurementPoint(v: Viewer, point: Vec3, toLocal: Vec3 -> Vec3): (r: Viewer)
    ensures !(v.measurement.Some? && v.three.Some?) ==> r == v
    ensures v.measurement.Some? && v.three.Some? ==>
              var s := SetNextPoint(v.measurement.value, point, v.nextId, Some(v.three.value.root), toLocal);
              && r.measurement == Some(s.measurement)
              && r.three == Some(v.three.value.(root := s.context.value))
              && r.nextId == (if s.accepted then v.nextId + 1 else v.nextId)
              && r.modelMesh == v.modelMesh && r.slab == v.slab
  {
    if v.measurement.Some? && v.three.Some? then
      var t := v.three.value;
      var s := SetNextPoint(v.measurement.value, point, v.nextId, Some(t.root), toLocal);
      v.(measurement := Some(s.measurement), three := Some(t.(root := s.context.value)),
         nextId := if s.accepted then v.nextId + 1 else v.nextId)
    else v
  }

  datatype ClickResult = ClickResult(viewer: Viewer, event: ClickEvent)

  /** `handleClick`: a click with a world point is forwarded to the active
      measurement and marked handled, whether or not a measurement exists;
      a click without a point is left alone. */
  function HandleClick(v: Viewer, e: ClickEvent, toLocal: Vec3 -> Vec3): (r: ClickResult)
    ensures e.worldIntersectionPoint.None? ==> r == ClickResult(v, e)
    ensures e.worldIntersectionPoint.Some? ==>
              && r.event == e.(handled := true)
              && r.viewer == SetNextMeasurementPoint(v, e.worldIntersectionPoint.value, toLocal)
  {
    if e.worldIntersectionPoint.Some? then
      ClickResult(SetNextMeasurementPoint(v, e.worldIntersectionPoint.value, toLocal), e.(handled := true))
    else
      ClickResult(v, e)
  }

  /** A click with a point, while a measurement that still has room is
      active, appends exactly one point there and attaches its marker; the
      viewer stays valid. */
  lemma ClickAddsPoint(v: Viewer, e: ClickEvent, toLocal: Vec3 -> Vec3)
    requires Valid(v) && v.three.Some? && v.measurement.Some? && e.worldIntersectionPoint.Some?
    requires !(HasPointLimit(v.measurement.value) && |v.measurement.value.points| == v.measurement.value.pointLimit)
    ensures var r := HandleClick(v, e, toLocal).viewer;
      var p := NewMeasurementPoint(v.nextId, toLocal(e.worldIntersectionPoint.value), None, None);
      && Valid(r)
      && r.measurement.value.points == v.measurement.value.points + [p]
      && Ids(r.three.value.root.children) == Ids(v.three.value.root.children) + {p.id}
  {
    ClickKeepsValid(v, e, toLocal);
  }

  lemma ClickKeepsValid(v: Viewer, e: ClickEvent, toLocal: Vec3 -> Vec3)
    requires Valid(v)
    ensures Valid(HandleClick(v, e, toLocal).viewer)
  {
    if e.worldIntersectionPoint.Some? && v.measurement.Some? && v.three.Some? {
      var m := v.measurement.value;
      var s := SetNextPoint(m, e.worldIntersectionPoint.value, v.nextId, Some(v.three.value.root), toLocal);
      if s.accepted {
        var p := s.measurement.points[|m.points|];
        assert s.measurement.points == m.points + [p];
        AppendPoint(m.points, p);
      }
    }
  }

  /** The stored position of a dragged marker: its world position keeps its
      depth and takes the x and y of the world point under the cursor, and
      is converted back into the root's frame (`moveObject` on the marker). */
  function Relocate(o: Oracles, local: Vec3, cursor: Vec2): (r: Vec3)
    ensures var w := o.toWorld(local);
      r == o.toLocal(Vec3(o.unproject(cursor).x, o.unproject(cursor).y, w.z))
  {
    var objectWorld := o.toWorld(local);
    var pointerWorld := o.unproject(cursor).(z := objectWorld.z);
    var movementDelta := Sub(pointerWorld, objectWorld);
    o.toLocal(Add(objectWorld, movementDelta))
  }

  /** The root's frame conversions undo each other: converting a world
      point into the root's frame and back gives the point again. */
  ghost predicate InverseFrames(o: Oracles) {
    forall p :: o.toWorld(o.toLocal(p)) == p
  }

  /** When the conversions are inverse, the relocated marker lies in world
      space at the cursor's x and y and at its old depth. */
  lemma RelocateKeepsDepth(o: Oracles, local: Vec3, cursor: Vec2)
    requires InverseFrames(o)
    ensures o.toWorld(Relocate(o, local, cursor))
              == Vec3(o.unproject(cursor).x, o.unproject(cursor).y, o.toWorld(local).z)
  {
  }

  /** The points with the one whose marker is `id` given a new position;
      the order and every other point are kept. */
  function MovePoint(ps: seq<MeasurementPoint>, id: NodeId, f: Vec3 -> Vec3): (r: seq<MeasurementPoint>)
    ensures |r| == |ps|
    ensures forall i :: 0 <= i < |ps| ==> r[i].id == ps[i].id && r[i].(position := ps[i].position) == ps[i]
    ensures forall i :: 0 <= i < |ps| && ps[i].id != id ==> r[i] == ps[i]
    ensures forall i :: 0 <= i < |ps| && ps[i].id == id ==> r[i].position == f(ps[i].position)
  {
    seq(|ps|, i requires 0 <= i < |ps| => if ps[i].id == id then ps[i].(position := f(ps[i].position)) else ps[i])
  }

  /** Moving a point keeps the ids, so distinctness and the limit carry
      over. */
  lemma MovePointKeepsIds(ps: seq<MeasurementPoint>, id: NodeId, f: Vec3 -> Vec3)
    ensures PointIds(MovePoint(ps, id, f)) == PointIds(ps)
    ensures DistinctPoints(ps) ==> DistinctPoints(MovePoint(ps, id, f))
  {
    var r := MovePoint(ps, id, f);
    assert forall i :: 0 <= i < |ps| ==> r[i].id == ps[i].id;
  }

  /** A name that matches a named node of the gizmo. */
  function NameMatches(selectedName: string): Node -> bool {
    (n: Node) => n.name != "" && selectedName == n.name
  }

  /** The gizmo search succeeds exactly for the three sphere names. */
  lemma GizmoNames(name: string)
    ensures FindChild(RotationControl, NameMatches(name)).Some? <==> name in {X_SPHERE, Y_SPHERE, Z_SPHERE}
  {
    var orbits := RotationControl.children;
    OrbitPreOrder(orbits[0]);
    OrbitPreOrder(orbits[1]);
    OrbitPreOrder(orbits[2]);
    var x, y, z := PreOrder(orbits[0]), PreOrder(orbits[1]), PreOrder(orbits[2]);
    assert PreOrderAll(orbits[2..]) == z by {
      assert orbits[2..][1..] == [];
    }
    assert PreOrderAll(orbits[1..]) == y + z by {
      assert orbits[1..][1..] == orbits[2..];
    }
    assert PreOrder(RotationControl) == [RotationControl] + x + y + z;
    if name in {X_SPHERE, Y_SPHERE, Z_SPHERE} {
      var k := if name == X_SPHERE then 3 else if name == Y_SPHERE then 6 else 9;
      assert NameMatches(name)(PreOrder(RotationControl)[k]);
    }
  }

  /** An orbit of the gizmo lists itself, its circle and its sphere. */
  lemma OrbitPreOrder(orbit: Node)
    requires |orbit.children| == 2 && orbit.children[0].children == [] && orbit.children[1].children == []
    ensures PreOrder(orbit) == [orbit, orbit.children[0], orbit.children[1]]
  {
    var cs := orbit.children;
    assert PreOrderAll([]) == [];
    assert PreOrder(cs[0]) == [cs[0]];
    assert PreOrder(cs[1]) == [cs[1]];
    assert cs[1..][1..] == [];
    assert PreOrderAll(cs[1..]) == [cs[1]];
  }

  /** The axis and angle of a drag on a gizmo sphere: the x sphere turns
      about X by the vertical delta, the y sphere about Y by the horizontal
      delta, and the z sphere about Z by half the z component of the cross
      product of the mouse delta (y flipped) and the vector from the cursor
      to the gizmo's screen position; any other name turns by 0 about the
      zero vector. */
  function SphereTurn(name: string, e: DragEvent, sensitivity: real, controlScreen: Vec2): (r: AxisAngle)
    ensures name == X_SPHERE ==> r == AxisAngle(XAxis, TurnAngle(e.screenDelta.y, sensitivity))
    ensures name == Y_SPHERE ==> r == AxisAngle(YAxis, TurnAngle(e.screenDelta.x, sensitivity))
    ensures name == Z_SPHERE ==> r.axis == ZAxis
    ensures r.axis == Origin <==> name !in {X_SPHERE, Y_SPHERE, Z_SPHERE}
    ensures r.axis == Origin ==> r.angle == 0.0
  {
    if name == X_SPHERE then AxisAngle(XAxis, TurnAngle(e.screenDelta.y, sensitivity))
    else if name == Y_SPHERE then AxisAngle(YAxis, TurnAngle(e.screenDelta.x, sensitivity))
    else if name == Z_SPHERE then
      var mouseDelta := Vec3(e.screenDelta.x, -e.screenDelta.y, 0.0);
      var toOrigin := Vec3(controlScreen.x - e.currentMousePosition.x, controlScreen.y - e.currentMousePosition.y, 0.0);
      AxisAngle(ZAxis, TurnAngle(Cross(mouseDelta, toOrigin).z * Z_TURN_FACTOR, sensitivity))
    else AxisAngle(Origin, 0.0)
  }

  /** The z sphere's angle in closed form: dragging along the circle around
      the gizmo's screen position turns by half the swept signed area, in
      degrees. */
  lemma ZTurnClosedForm(e: DragEvent, sensitivity: real, c: Vec2)
    ensures var dx, dy := e.screenDelta.x, e.screenDelta.y;
      var cx, cy := e.currentMousePosition.x, e.currentMousePosition.y;
      SphereTurn(Z_SPHERE, e, sensitivity, c)
        == AxisAngle(ZAxis, TurnAngle((dx * (c.y - cy) + dy * (c.x - cx)) * Z_TURN_FACTOR, sensitivity))
  {
  }

  datatype DragResult = DragResult(viewer: Viewer, event: DragEvent)

  /** `handleDrag`: only with a Three component, a selected object and the
      left button. A selected marker under an NDC cursor is moved to the
      cursor, keeping its place among the points; a selected gizmo sphere
      turns the root about its axis. Either marks the event handled; any
      other drag is left to the built-in handling. */
  function HandleDrag(v: Viewer, e: DragEvent, o: Oracles): (r: DragResult)
    ensures !(v.three.Some? && e.selectedObject.Some? && e.button == Left) ==> r == DragResult(v, e)
    ensures r.event == e || r.event == e.(handled := true)
    ensures r.viewer.three.Some? <==> v.three.Some?
    ensures r.viewer.(three := v.three, measurement := v.measurement) == v
    ensures r.event.handled && !e.handled ==> v.three.Some? && e.selectedObject.Some? && e.button == Left
    ensures v.three.Some? && e.selectedObject.Some? && e.button == Left
            && e.selectedObject.value.kind == Marker && IsNDC(e.currentMousePosition) ==>
              var sel := e.selectedObject.value;
              && r.event.handled && r.viewer.three == v.three
              && (v.measurement.None? ==> r.viewer.measurement.None?)
              && (v.measurement.Some? ==>
                    var ps := v.measurement.value.points;
                    && r.viewer.measurement == Some(v.measurement.value.(points := MovePoint(ps, sel.id, p => Relocate(o, p, e.currentMousePosition)))))
    ensures v.three.Some? && e.selectedObject.Some? && e.button == Left
            && !(e.selectedObject.value.kind == Marker && IsNDC(e.currentMousePosition)) ==>
              var t := v.three.value;
              var name := e.selectedObject.value.name;
              && r.viewer.measurement == v.measurement
              && (name in {X_SPHERE, Y_SPHERE, Z_SPHERE} ==>
                    && r.event.handled
                    && r.viewer.three == Some(RotateRoot(t, SphereTurn(name, e, t.sensitivity, o.controlScreen).axis,
                                                         SphereTurn(name, e, t.sensitivity, o.controlScreen).angle)))
              && (name !in {X_SPHERE, Y_SPHERE, Z_SPHERE} ==> r == DragResult(v, e))
  {
    if v.three.Some? && e.selectedObject.Some? && e.button == Left then
      var t := v.three.value;
      var sel := e.selectedObject.value;
      if sel.kind == Marker && IsNDC(e.currentMousePosition) then
        var moved := if v.measurement.Some? then
            Some(v.measurement.value.(points := MovePoint(v.measurement.value.points, sel.id, p => Relocate(o, p, e.currentMousePosition))))
          else None;
        DragResult(v.(measurement := moved), e.(handled := true))
      else
        GizmoNames(sel.name);
        if FindChild(RotationControl, NameMatches(sel.name)).Some? then
          var turn := SphereTurn(sel.name, e, t.sensitivity, o.controlScreen);
          DragResult(v.(three := Some(RotateRoot(t, turn.axis, turn.angle))), e.(handled := true))
        else
          DragResult(v, e)
    else
      DragResult(v, e)
  }

  lemma HandleDragKeepsValid(v: Viewer, e: DragEvent, o: Oracles)
    requires Valid(v)
    ensures Valid(HandleDrag(v, e, o).viewer)
  {
    if v.three.Some? && e.selectedObject.Some? && e.button == Left && v.measurement.Some? {
      MovePointKeepsIds(v.measurement.value.points, e.selectedObject.value.id, p => Relocate(o, p, e.currentMousePosition));
    }
  }

  // ---------------------------------------------------------------------
  // The component's events, bound to the listeners

  /** `ngAfterViewInit`: without a Three component it throws; otherwise it
      loads the example cube (a view reset) and attaches the model mesh. */
  function AfterViewInit(v: Viewer): (r: Result<Viewer, Fault>)
    ensures v.three.None? <==> r == Thrown(MissingThreeComponent)
    ensures r.Ok? ==> r.value.three.Some? && r.value.three.value.root == Root(Identity, [v.modelMesh])
    ensures r.Ok? ==> r.value == ResetView(v)
  {
    if v.three.None? then Thrown(MissingThreeComponent)
    else
      var reset := ResetView(v);
      var t := reset.three.value;
      assert RemoveChild([v.modelMesh], v.modelMesh.id) == [];
      Ok(reset.(three := Some(t.(root := AttachToRoot(t.root, v.modelMesh)))))
  }

  /** Initialising a valid viewer leaves it valid. */
  lemma AfterViewInitKeepsValid(v: Viewer)
    requires Valid(v)
    ensures AfterViewInit(v).Ok? ==> Valid(AfterViewInit(v).value)
  {
    if v.three.Some? {
      ResetViewKeepsValid(v);
      assert AfterViewInit(v).value == ResetView(v);
    }
  }

  /** A pointer press on the component. */
  function PointerDownOn(v: Viewer, b: MouseButton, sceneAt: Vec2 -> seq<Hit>): (r: Viewer)
    ensures v.three.None? ==> r == v
    ensures v.three.Some? ==> r == v.(three := Some(v.three.value.(pointer := PointerDown(v.three.value.pointer, b, sceneAt))))
  {
    if v.three.Some? then v.(three := Some(v.three.value.(pointer := PointerDown(v.three.value.pointer, b, sceneAt)))) else v
  }

  /** A pointer move: the component steps its pointer; a drag event goes to
      `handleDrag` and then, if still unhandled, to the built-in handling. */
  function PointerMoveOn(v: Viewer, ndc: Option<Vec2>, movement: Vec2, o: Oracles): (r: Viewer)
    ensures v.three.None? ==> r == v
    ensures v.three.Some? ==>
              && r.three.Some? && r.three.value.pointer == PointerMove(v.three.value.pointer, ndc, movement).pointer
              && r.modelMesh == v.modelMesh && r.slab == v.slab && r.nextId == v.nextId
    ensures v.three.Some? && PointerMove(v.three.value.pointer, ndc, movement).drag.None? ==>
              r == v.(three := Some(v.three.value.(pointer := PointerMove(v.three.value.pointer, ndc, movement).pointer)))
  {
    if v.three.Some? then
      var step := PointerMove(v.three.value.pointer, ndc, movement);
      var moved := v.(three := Some(v.three.value.(pointer := step.pointer)));
      match step.drag
      case None => moved
      case Some(e) =>
        var d := HandleDrag(moved, e, o);
        d.viewer.(three := Some(AfterDrag(d.viewer.three.value, d.event)))
    else v
  }

  /** A pointer release: the component releases its pointer; a click event
      goes to `handleClick`, after which the built-in handling only logs. */
  function PointerUpOn(v: Viewer, rootAt: Vec2 -> seq<Hit>, toLocal: Vec3 -> Vec3): (r: Viewer)
    ensures v.three.None? ==> r == v
    ensures v.three.Some? ==> r.three.Some? && r.three.value.pointer == v.three.value.pointer.(button := None)
    ensures v.three.Some? && PointerUp(v.three.value.pointer, rootAt).click.None? ==>
              r == v.(three := Some(v.three.value.(pointer := v.three.value.pointer.(button := None))))
  {
    if v.three.Some? then
      var step := PointerUp(v.three.value.pointer, rootAt);
      var released := v.(three := Some(v.three.value.(pointer := step.pointer)));
      match step.click
      case None => released
      case Some(e) => HandleClick(released, e, toLocal).viewer
    else v
  }

  /** Pointer input, routed through the listeners, keeps the viewer
      invariant. */
  lemma PointerStepsKeepValid(v: Viewer, b: MouseButton, ndc: Option<Vec2>, movement: Vec2, o: Oracles,
                              sceneAt: Vec2 -> seq<Hit>, rootAt: Vec2 -> seq<Hit>)
    requires Valid(v)
    ensures Valid(PointerDownOn(v, b, sceneAt))
    ensures Valid(PointerMoveOn(v, ndc, movement, o))
    ensures Valid(PointerUpOn(v, rootAt, o.toLocal))
  {
    if v.three.Some? {
      var step := PointerMove(v.three.value.pointer, ndc, movement);
      var moved := v.(three := Some(v.three.value.(pointer := step.pointer)));
      if step.drag.Some? {
        HandleDragKeepsValid(moved, step.drag.value, o);
      }
      var up := PointerUp(v.three.value.pointer, rootAt);
      var released := v.(three := Some(v.three.value.(pointer := up.pointer)));
      if up.click.Some? {
        ClickKeepsValid(released, up.click.value, o.toLocal);
      }
    }
  }

  /** A still click over the model while a measurement with room is active
      places the next point at the hit, converted into the root's frame. */
  lemma ClickPlacesPoint(v: Viewer, b: MouseButton, sceneAt: Vec2 -> seq<Hit>, rootAt: Vec2 -> seq<Hit>, toLocal: Vec3 -> Vec3)
    requires Valid(v) && v.three.Some? && v.measurement.Some?
    requires !(HasPointLimit(v.measurement.value) && |v.measurement.value.points| == v.measurement.value.pointLimit)
    requires rootAt(v.three.value.pointer.mousePosition) != []
    ensures var r := PointerUpOn(PointerDownOn(v, b, sceneAt), rootAt, toLocal);
      var hit := rootAt(v.three.value.pointer.mousePosition)[0].point;
      && Valid(r)
      && r.measurement.value.points == v.measurement.value.points + [NewMeasurementPoint(v.nextId, toLocal(hit), None, None)]
  {
    var d := PointerDownOn(v, b, sceneAt);
    var up := PointerUp(d.three.value.pointer, rootAt);
    var released := d.(three := Some(d.three.value.(pointer := up.pointer)));
    ClickAddsPoint(released, up.click.value, toLocal);
  }

  /** A left drag that starts on the x sphere turns the root about X by the
      vertical delta alone: the listener handles it, so the built-in orbit
      does not run. */
  lemma XSphereDragTurnsAboutX(v: Viewer, ndc: Vec2, movement: Vec2, o: Oracles)
    requires v.three.Some?
    requires v.three.value.pointer.button == Some(Left)
    requires v.three.value.pointer.selected.Some? && v.three.value.pointer.selected.value.name == X_SPHERE
    requires v.three.value.pointer.selected.value.kind != Marker
    requires Displaced(v.three.value.pointer.clickPosition, ndc)
    ensures var r := PointerMoveOn(v, Some(ndc), movement, o);
      var t := v.three.value;
      && r.three.Some?
      && r.three.value.root.transform.rotations == t.root.transform.rotations + [AxisAngle(XAxis, TurnAngle(movement.y, t.sensitivity))]
      && r.three.value.root.transform.position == t.root.transform.position
  {
    var step := PointerMove(v.three.value.pointer, Some(ndc), movement);
    var moved := v.(three := Some(v.three.value.(pointer := step.pointer)));
    var e := step.drag.value;
    var d := HandleDrag(moved, e, o);
    assert d.viewer.three == Some(RotateRoot(moved.three.value, XAxis, TurnAngle(movement.y, v.three.value.sensitivity)));
  }

  /** A left drag on empty space is not handled by the viewer, so the
      built-in orbit turns the root about Y and then X. */
  lemma EmptyDragOrbits(v: Viewer, ndc: Vec2, movement: Vec2, o: Oracles)
    requires v.three.Some?
    requires v.three.value.pointer.button == Some(Left) && v.three.value.pointer.selected.None?
    requires Displaced(v.three.value.pointer.clickPosition, ndc)
    ensures var r := PointerMoveOn(v, Some(ndc), movement, o);
      var t := v.three.value;
      && r.three.Some?
      && r.three.value.root.transform.rotations == t.root.transform.rotations
           + [AxisAngle(YAxis, TurnAngle(movement.x, t.sensitivity)), AxisAngle(XAxis, TurnAngle(movement.y, t.sensitivity))]
  {
    var step := PointerMove(v.three.value.pointer, Some(ndc), movement);
    var mt := v.three.value.(pointer := step.pointer);
    var moved := v.(three := Some(mt));
    var e := step.drag.value;
    assert HandleDrag(moved, e, o) == DragResult(moved, e);
    UnhandledLeftDragOrbits(mt, e);
  }
}

=== FILE: scene.dfy ===
/** The scene graph as seen by the viewer: a tree of nodes under the root
    object, and the child-list operations the Three component performs on the
    root (three.component.ts). Node identity is modelled by `NodeId`: two
    nodes are the same JavaScript object exactly when their ids are equal. */
module Scene {
  import opened Geometry

  type NodeId = nat

  /** `Plain` stands for `Object3D`, `Group` and `LineLoop`; `Mesh` for a
      `THREE.Mesh`; `Marker` for a `MeasurementPoint`, a `Mesh` subclass. */
  datatype NodeKind = Plain | Mesh | Marker

  datatype Node = Node(id: NodeId, kind: NodeKind, name: string, children: seq<Node>)

  /** `instanceof Mesh`, which measurement markers satisfy too. */
  predicate IsMesh(n: Node) {
    n.kind == Mesh || n.kind == Marker
  }

  /** The subtree of `n` in pre-order: `n` first, then each child's subtree
      in child order. */
  function PreOrder(n: Node): (r: seq<Node>)
    ensures |r| >= 1 && r[0] == n
  {
    [n] + PreOrderAll(n.children)
  }

  function PreOrderAll(cs: seq<Node>): seq<Node> {
    if cs == [] then [] else PreOrder(cs[0]) + PreOrderAll(cs[1..])
  }

  /** The root object: its pose and its direct children, in order. */
  datatype Root = Root(transform: Transform, children: seq<Node>)

  const EmptyRoot: Root := Root(Identity, [])

  function Ids(cs: seq<Node>): set<NodeId> {
    set i | 0 <= i < |cs| :: cs[i].id
  }

  /** No object is a child twice, which `Object3D.add` guarantees. */
  ghost predicate UniqueIds(cs: seq<Node>) {
    forall i, j :: 0 <= i < j < |cs| ==> cs[i].id != cs[j].id
  }

  /** `Array.indexOf` by identity: the first index holding `id`, or -1. */
  function IndexOf(cs: seq<Node>, id: NodeId): (k: int)
    ensures -1 <= k < |cs|
    ensures k == -1 <==> id !in Ids(cs)
    ensures k >= 0 ==> cs[k].id == id && forall j :: 0 <= j < k ==> cs[j].id != id
  {
    if cs == [] then -1
    else if cs[0].id == id then 0
    else
      var k := IndexOf(cs[1..], id);
      assert forall j :: 0 <= j < |cs| - 1 ==> cs[1..][j] == cs[j + 1];
      assert Ids(cs) == {cs[0].id} + Ids(cs[1..]);
      if k == -1 then -1 else k + 1
  }

  /** `Object3D.remove`: splices out the child at `indexOf(object)`, and
      leaves the list alone when the object is not a child. */
  function RemoveChild(cs: seq<Node>, id: NodeId): (r: seq<Node>)
    ensures IndexOf(cs, id) == -1 ==> r == cs
    ensures IndexOf(cs, id) >= 0 ==> r == cs[..IndexOf(cs, id)] + cs[IndexOf(cs, id) + 1..]
  {
    if cs == [] then []
    else if cs[0].id == id then cs[1..]
    else [cs[0]] + RemoveChild(cs[1..], id)
  }

  /** The children whose ids are not in `ids`, in their original order. */
  function Without(cs: seq<Node>, ids: set<NodeId>): (r: seq<Node>)
    ensures |r| <= |cs|
  {
    if cs == [] then []
    else (if cs[0].id in ids then [] else [cs[0]]) + Without(cs[1..], ids)
  }

  lemma IdsCons(cs: seq<Node>)
    requires cs != []
    ensures Ids(cs) == {cs[0].id} + Ids(cs[1..])
  {
    assert forall j :: 0 <= j < |cs| - 1 ==> cs[1..][j] == cs[j + 1];
    forall x | x in Ids(cs) ensures x in {cs[0].id} + Ids(cs[1..]) {
      var i :| 0 <= i < |cs| && cs[i].id == x;
      if i > 0 {
        assert cs[1..][i - 1].id == x;
      }
    }
  }

  /** The tail of a list with unique ids has unique ids and lacks the head's id. */
  lemma UniqueTail(cs: seq<Node>)
    requires cs != [] && UniqueIds(cs)
    ensures UniqueIds(cs[1..]) && cs[0].id !in Ids(cs[1..])
  {
    assert forall j :: 0 <= j < |cs| - 1 ==> cs[1..][j] == cs[j + 1];
  }

  /** Putting a node with a fresh id in front keeps ids unique. */
  lemma UniqueCons(x: Node, rest: seq<Node>)
    requires UniqueIds(rest) && x.id !in Ids(rest)
    ensures UniqueIds([x] + rest) && Ids([x] + rest) == {x.id} + Ids(rest)
  {
    var cs := [x] + rest;
    assert cs[1..] == rest;
    IdsCons(cs);
    forall i, j | 0 <= i < j < |cs| ensures cs[i].id != cs[j].id {
      assert cs[j] == rest[j - 1];
      if i > 0 {
        assert cs[i] == rest[i - 1];
      } else {
        assert rest[j - 1].id in Ids(rest);
      }
    }
  }

  /** Filtering ids that do not occur changes nothing. */
  lemma {:induction false} WithoutAbsent(cs: seq<Node>, ids: set<NodeId>)
    requires Ids(cs) !! ids
    ensures Without(cs, ids) == cs
  {
    if cs != [] {
      IdsCons(cs);
      WithoutAbsent(cs[1..], ids);
    }
  }

  /** With unique ids, removing one object is filtering out its id. */
  lemma {:induction false} RemoveChildIsWithout(cs: seq<Node>, id: NodeId)
    requires UniqueIds(cs)
    ensures RemoveChild(cs, id) == Without(cs, {id})
    ensures UniqueIds(RemoveChild(cs, id))
    ensures Ids(RemoveChild(cs, id)) == Ids(cs) - {id}
  {
    if cs != [] {
      IdsCons(cs);
      UniqueTail(cs);
      if cs[0].id == id {
        WithoutAbsent(cs[1..], {id});
      } else {
        RemoveChildIsWithout(cs[1..], id);
        UniqueCons(cs[0], RemoveChild(cs[1..], id));
      }
    }
  }

  /** Filtering keeps unique ids unique and removes exactly the filtered ids. */
  lemma {:induction false} WithoutIds(cs: seq<Node>, ids: set<NodeId>)
    requires UniqueIds(cs)
    ensures UniqueIds(Without(cs, ids))
    ensures Ids(Without(cs, ids)) == Ids(cs) - ids
  {
    if cs == [] {
      assert Ids(cs) == {};
    } else {
      IdsCons(cs);
      UniqueTail(cs);
      WithoutIds(cs[1..], ids);
      var rest := Without(cs[1..], ids);
      if cs[0].id in ids {
        assert Without(cs, ids) == rest;
      } else {
        assert Without(cs, ids) == [cs[0]] + rest;
        assert cs[0].id !in Ids(rest);
        UniqueCons(cs[0], rest);
      }
    }
  }

  /** Filtering shrinks a list with unique ids by the number of filtered
      ids it holds. */
  lemma {:induction false} WithoutLength(cs: seq<Node>, ids: set<NodeId>)
    requires UniqueIds(cs)
    ensures |Without(cs, ids)| == |cs| - |Ids(cs) * ids|
  {
    if cs == [] {
      assert Ids(cs) == {};
    } else {
      IdsCons(cs);
      UniqueTail(cs);
      WithoutLength(cs[1..], ids);
      var tailHits := Ids(cs[1..]) * ids;
      if cs[0].id in ids {
        assert Ids(cs) * ids == {cs[0].id} + tailHits;
        assert cs[0].id !in tailHits;
        assert |Ids(cs) * ids| == 1 + |tailHits|;
      } else {
        assert Ids(cs) * ids == tailHits;
      }
    }
  }

  /** Filtering twice is filtering by both sets at once. */
  lemma {:induction false} WithoutWithout(cs: seq<Node>, a: set<NodeId>, b: set<NodeId>)
    ensures Without(Without(cs, a), b) == Without(cs, a + b)
  {
    if cs != [] {
      WithoutWithout(cs[1..], a, b);
      var rest := Without(cs[1..], a);
      if cs[0].id in a {
        assert Without(cs, a) == rest;
      } else {
        assert Without(cs, a) == [cs[0]] + rest;
        assert ([cs[0]] + rest)[1..] == rest;
      }
    }
  }

  /** `attachToRoot`: the object becomes the root's last child; if it was
      already a child it is first taken out (`Object3D.add` detaches an
      object from its old parent). */
  function AttachToRoot(root: Root, n: Node): (r: Root)
    ensures r.transform == root.transform
    ensures |r.children| >= 1 && r.children[|r.children| - 1] == n
    ensures r.children[..|r.children| - 1] == RemoveChild(root.children, n.id)
    ensures UniqueIds(root.children) ==> UniqueIds(r.children) && Ids(r.children) == Ids(root.children) + {n.id}
  {
    AttachKeepsUnique(root.children, n);
    Root(root.transform, RemoveChild(root.children, n.id) + [n])
  }

  lemma AttachKeepsUnique(cs: seq<Node>, n: Node)
    ensures var r := RemoveChild(cs, n.id) + [n]; r[..|r| - 1] == RemoveChild(cs, n.id)
    ensures UniqueIds(cs) ==> UniqueIds(RemoveChild(cs, n.id) + [n])
    ensures UniqueIds(cs) ==> Ids(RemoveChild(cs, n.id) + [n]) == Ids(cs) + {n.id}
  {
    var rest := RemoveChild(cs, n.id);
    var r := rest + [n];
    assert r[..|r| - 1] == rest;
    if UniqueIds(cs) {
      RemoveChildIsWithout(cs, n.id);
      forall i, j | 0 <= i < j < |r| ensures r[i].id != r[j].id {
        if j == |r| - 1 {
          assert r[i] == rest[i];
          assert rest[i].id in Ids(rest);
        }
      }
      forall x | x in Ids(r) ensures x in Ids(rest) + {n.id} {
        var i :| 0 <= i < |r| && r[i].id == x;
        if i < |rest| { assert r[i] == rest[i]; }
      }
      forall x | x in Ids(rest) ensures x in Ids(r) {
        var i :| 0 <= i < |rest| && rest[i].id == x;
        assert r[i] == rest[i];
      }
      assert r[|rest|] == n;
    }
  }

  /** `removeFromScene`, as far as the child list goes: the object is no
      longer a child and every other child keeps its place. */
  function RemoveFromScene(root: Root, id: NodeId): (r: Root)
    ensures r.transform == root.transform
    ensures UniqueIds(root.children) ==> UniqueIds(r.children) && Ids(r.children) == Ids(root.children) - {id}
    ensures UniqueIds(root.children) ==> r.children == Without(root.children, {id})
  {
    RemoveKeepsUnique(root.children, id);
    Root(root.transform, RemoveChild(root.children, id))
  }

  lemma RemoveKeepsUnique(cs: seq<Node>, id: NodeId)
    ensures UniqueIds(cs) ==> RemoveChild(cs, id) == Without(cs, {id})
    ensures UniqueIds(cs) ==> UniqueIds(RemoveChild(cs, id)) && Ids(RemoveChild(cs, id)) == Ids(cs) - {id}
  {
    if UniqueIds(cs) {
      RemoveChildIsWithout(cs, id);
    }
  }

  /** `resetRootTransform`: position and rotation back to zero, children kept. */
  function ResetRootTransform(root: Root): (r: Root)
    ensures r.transform == Identity && r.children == root.children
  {
    Root(Identity, root.children)
  }

  /** `clearRoot`: every child detached, then the transform reset. */
  function ClearRoot(root: Root): (r: Root)
    ensures r == EmptyRoot
  {
    ResetRootTransform(Root(root.transform, []))
  }
}

=== FILE: three.dfy ===
/** The Three component's own state and handlers (three.component.ts): the
    orthographic camera with its zoom, the root object, the sensitivity and
    the pointer. Zoom is counted in exact tenths, so the 0.1 steps do not
    accumulate rounding error. */
module Three {
  import opened Wrappers
  import opened Geometry
  import opened Enums
  import opened Scene
  import opened Events
  import opened Gesture

  /** `viewSize`: the camera's fixed vertical extent in world units. */
  const VIEW_SIZE: real := 3.0

  /** Zoom in steps while below 3.0 and out while above 0.2, in tenths. */
  const ZOOM_IN_BELOW: int := 30
  const ZOOM_OUT_ABOVE: int := 2

  /** The pan dampening per unit of sensitivity. */
  const PAN_DAMPENING: real := 0.005

  /** An orthographic camera's frustum extents and its zoom in tenths. */
  datatype Camera = Camera(left: real, right: real, top: real, bottom: real, zoom: int)

  /** The extents `createScene` and `onWindowResize` give the camera for an
      aspect ratio (width over height). */
  function Resize(c: Camera, aspect: real): (r: Camera)
    ensures r.zoom == c.zoom
    ensures r.left == -r.right && r.bottom == -r.top
    ensures r.right - r.left == VIEW_SIZE * aspect
    ensures r.top - r.bottom == VIEW_SIZE
  {
    c.(left := -(VIEW_SIZE * aspect / 2.0), right := VIEW_SIZE * aspect / 2.0,
       top := VIEW_SIZE / 2.0, bottom := -(VIEW_SIZE / 2.0))
  }

  /** The extents depend on the aspect alone: resizing again to the same
      aspect changes nothing, the last resize wins, and zooming neither
      affects nor is affected by a resize. */
  lemma ResizeIdempotent(c: Camera, a: real, b: real, d: ZoomDirection)
    ensures Resize(Resize(c, a), a) == Resize(c, a)
    ensures Resize(Resize(c, a), b) == Resize(c, b)
    ensures Zoom(Resize(c, a), d) == Resize(Zoom(c, d), a)
  {
  }

  /** The camera `createScene` builds: zoom 1.0 and the extents for the
      container's aspect. */
  function CreateCamera(aspect: real): (c: Camera)
    ensures c.zoom == 10
    ensures c.right - c.left == VIEW_SIZE * aspect && c.top - c.bottom == VIEW_SIZE
  {
    Resize(Camera(0.0, 0.0, 0.0, 0.0, 10), aspect)
  }

  /** `zoom`: one tenth in, unless already at 3.0 or more; one tenth out,
      unless already at 0.2 or less. The extents are not touched. */
  function Zoom(c: Camera, d: ZoomDirection): (r: Camera)
    ensures r.(zoom := c.zoom) == c
    ensures d == In ==> r.zoom == (if c.zoom < ZOOM_IN_BELOW then c.zoom + 1 else c.zoom)
    ensures d == Out ==> r.zoom == (if c.zoom > ZOOM_OUT_ABOVE then c.zoom - 1 else c.zoom)
  {
    match d
    case In => if c.zoom < ZOOM_IN_BELOW then c.(zoom := c.zoom + 1) else c
    case Out => if c.zoom > ZOOM_OUT_ABOVE then c.(zoom := c.zoom - 1) else c
  }

  /** Zoom steps applied in order. */
  function ZoomAll(c: Camera, ds: seq<ZoomDirection>): Camera
    decreases |ds|
  {
    if ds == [] then c else ZoomAll(Zoom(c, ds[0]), ds[1..])
  }

  /** The zoom range [0.2, 3.0] is closed under any sequence of zoom steps,
      and no step touches the extents. */
  lemma {:induction false} ZoomStaysInRange(c: Camera, ds: seq<ZoomDirection>)
    requires ZOOM_OUT_ABOVE <= c.zoom <= ZOOM_IN_BELOW
    ensures ZOOM_OUT_ABOVE <= ZoomAll(c, ds).zoom <= ZOOM_IN_BELOW
    ensures ZoomAll(c, ds).(zoom := c.zoom) == c
    decreases |ds|
  {
    if ds != [] {
      ZoomStaysInRange(Zoom(c, ds[0]), ds[1..]);
    }
  }

  /** `k` zoom steps in one direction. */
  function Repeat(d: ZoomDirection, k: nat): (r: seq<ZoomDirection>)
    ensures |r| == k
  {
    seq(k, _ => d)
  }

  /** Zooming in `k` times climbs one tenth a step up to 3.0 and stays
      there. */
  lemma {:induction false} RepeatedZoomIn(c: Camera, k: nat)
    requires c.zoom <= ZOOM_IN_BELOW
    ensures ZoomAll(c, Repeat(In, k)).zoom == Min(c.zoom + k, ZOOM_IN_BELOW)
    decreases k
  {
    if k > 0 {
      assert Repeat(In, k)[1..] == Repeat(In, k - 1);
      RepeatedZoomIn(Zoom(c, In), k - 1);
    }
  }

  /** Zooming out `k` times descends one tenth a step down to 0.2 and stays
      there. */
  lemma {:induction false} RepeatedZoomOut(c: Camera, k: nat)
    requires c.zoom >= ZOOM_OUT_ABOVE
    ensures ZoomAll(c, Repeat(Out, k)).zoom == Max(c.zoom - k, ZOOM_OUT_ABOVE)
    decreases k
  {
    if k > 0 {
      assert Repeat(Out, k)[1..] == Repeat(Out, k - 1);
      RepeatedZoomOut(Zoom(c, Out), k - 1);
    }
  }

  /** `Math.sign`. */
  function Sign(x: real): int {
    if x < 0.0 then -1 else if x > 0.0 then 1 else 0
  }

  /** `onScroll`: a wheel turned up (negative `deltaY`) zooms in; zero or a
      positive delta zooms out. */
  function ScrollDirection(deltaY: real): (d: ZoomDirection)
    ensures d == In <==> deltaY < 0.0
  {
    if Sign(deltaY) == -1 then In else Out
  }

  /** The component's state. */
  datatype Three = Three(root: Root, camera: Camera, sensitivity: real, pointer: Pointer)

  /** The component after `createScene`: an empty root, the camera for the
      container's aspect, sensitivity 1 and the pointer at rest. */
  function CreateThree(aspect: real): (t: Three)
    ensures t.root == EmptyRoot && t.camera == CreateCamera(aspect)
    ensures t.sensitivity == 1.0 && t.pointer == Initial
  {
    Three(EmptyRoot, CreateCamera(aspect), 1.0, Initial)
  }

  /** `zoom` on the component: only the camera's zoom changes, by at most
      one tenth, and the range [0.2, 3.0] is kept. */
  function ZoomThree(t: Three, d: ZoomDirection): (r: Three)
    ensures r.(camera := t.camera) == t
    ensures r.camera.(zoom := t.camera.zoom) == t.camera
    ensures t.camera.zoom - 1 <= r.camera.zoom <= t.camera.zoom + 1
    ensures d == In ==> r.camera.zoom >= t.camera.zoom
    ensures d == Out ==> r.camera.zoom <= t.camera.zoom
    ensures ZOOM_OUT_ABOVE <= t.camera.zoom <= ZOOM_IN_BELOW ==> ZOOM_OUT_ABOVE <= r.camera.zoom <= ZOOM_IN_BELOW
  {
    t.(camera := Zoom(t.camera, d))
  }

  function OnScroll(t: Three, deltaY: real): (r: Three)
    ensures r.(camera := t.camera) == t
    ensures deltaY < 0.0 ==> r.camera == Zoom(t.camera, In)
    ensures deltaY >= 0.0 ==> r.camera == Zoom(t.camera, Out)
  {
    ZoomThree(t, ScrollDirection(deltaY))
  }

  function OnWindowResize(t: Three, aspect: real): (r: Three)
    ensures r.(camera := t.camera) == t && r.camera == Resize(t.camera, aspect)
  {
    t.(camera := Resize(t.camera, aspect))
  }

  /** `rotateObject` on the root: one more rotation about a world axis,
      recorded after the earlier ones. */
  function RotateRoot(t: Three, axis: Vec3, angle: real): (r: Three)
    ensures r.root.children == t.root.children
    ensures r.root.transform.position == t.root.transform.position
    ensures r.root.transform.rotations == t.root.transform.rotations + [AxisAngle(axis, angle)]
    ensures r.(root := t.root) == t
  {
    t.(root := t.root.(transform := t.root.transform.(rotations := t.root.transform.rotations + [AxisAngle(axis, angle)])))
  }

  /** `moveObject` on the root: the root's parent is the scene, whose
      transform is the identity, so the world delta is added to the local
      position unchanged. */
  function MoveRoot(t: Three, delta: Vec3): (r: Three)
    ensures r.root.children == t.root.children
    ensures r.root.transform.rotations == t.root.transform.rotations
    ensures r.root.transform.position == Add(t.root.transform.position, delta)
    ensures r.(root := t.root) == t
  {
    t.(root := t.root.(transform := t.root.transform.(position := Add(t.root.transform.position, delta))))
  }

  /** A move followed by the opposite move restores the root. */
  lemma MoveThenBack(t: Three, delta: Vec3)
    ensures MoveRoot(MoveRoot(t, delta), Scale(delta, -1.0)) == t
  {
  }

  /** The pan offset of the default drag for a screen delta. */
  function PanDelta(screenDelta: Vec2, sensitivity: real): Vec3 {
    Scale(Vec3(screenDelta.x, -screenDelta.y, 0.0), PAN_DAMPENING * sensitivity)
  }

  /** A screen delta taken as degrees, scaled by the sensitivity, in
      radians. */
  function TurnAngle(degrees: real, sensitivity: real): real {
    DegToRad(degrees) * sensitivity
  }

  /** The built-in `handleDrag`: the left button turns the root by the
      horizontal delta in degrees about world Y and then by the vertical
      delta about world X; the right button pans it in the screen plane, y
      inverted; any other button does nothing. Only the root's transform
      changes. */
  function HandleDrag(t: Three, e: DragEvent): (r: Three)
    ensures r.(root := t.root) == t && r.root.children == t.root.children
    ensures e.button == Left ==>
              && r.root.transform.position == t.root.transform.position
              && r.root.transform.rotations == t.root.transform.rotations
                   + [AxisAngle(YAxis, TurnAngle(e.screenDelta.x, t.sensitivity)),
                      AxisAngle(XAxis, TurnAngle(e.screenDelta.y, t.sensitivity))]
    ensures e.button == Right ==>
              && r.root.transform.rotations == t.root.transform.rotations
              && r.root.transform.position.z == t.root.transform.position.z
              && r.root.transform.position.x == t.root.transform.position.x + e.screenDelta.x * (PAN_DAMPENING * t.sensitivity)
              && r.root.transform.position.y == t.root.transform.position.y - e.screenDelta.y * (PAN_DAMPENING * t.sensitivity)
    ensures e.button.Other? ==> r == t
  {
    if e.button == Left then
      TurnTwice(t, TurnAngle(e.screenDelta.x, t.sensitivity), TurnAngle(e.screenDelta.y, t.sensitivity));
      RotateRoot(RotateRoot(t, YAxis, TurnAngle(e.screenDelta.x, t.sensitivity)), XAxis, TurnAngle(e.screenDelta.y, t.sensitivity))
    else if e.button == Right then
      MoveRoot(t, PanDelta(e.screenDelta, t.sensitivity))
    else
      t
  }

  lemma TurnTwice(t: Three, h: real, v: real)
    ensures RotateRoot(RotateRoot(t, YAxis, h), XAxis, v).root.transform.rotations
         == t.root.transform.rotations + [AxisAngle(YAxis, h), AxisAngle(XAxis, v)]
  {
    var turns := t.root.transform.rotations;
    assert RotateRoot(t, YAxis, h).root.transform.rotations == turns + [AxisAngle(YAxis, h)];
    assert turns + [AxisAngle(YAxis, h)] + [AxisAngle(XAxis, v)] == turns + [AxisAngle(YAxis, h), AxisAngle(XAxis, v)];
  }

  /** A right-button pan followed by the pan with the opposite screen
      delta puts the root back where it was. */
  lemma PanThenOppositeRestores(t: Three, e: DragEvent)
    requires e.button == Right
    ensures HandleDrag(HandleDrag(t, e), e.(screenDelta := Vec2(-e.screenDelta.x, -e.screenDelta.y))) == t
  {
    var back := e.(screenDelta := Vec2(-e.screenDelta.x, -e.screenDelta.y));
    assert PanDelta(back.screenDelta, t.sensitivity) == Scale(PanDelta(e.screenDelta, t.sensitivity), -1.0);
    MoveThenBack(t, PanDelta(e.screenDelta, t.sensitivity));
  }

  /** After the listeners have seen a drag event, the built-in handling
      runs only if none of them marked it handled. */
  function AfterDrag(t: Three, e: DragEvent): (r: Three)
    ensures e.handled ==> r == t
    ensures !e.handled ==> r == HandleDrag(t, e)
  {
    if !e.handled then HandleDrag(t, e) else t
  }

  /** A left drag no listener handled orbits the root. */
  lemma UnhandledLeftDragOrbits(t: Three, e: DragEvent)
    requires e.button == Left && !e.handled
    ensures AfterDrag(t, e).root.transform.rotations == t.root.transform.rotations
              + [AxisAngle(YAxis, TurnAngle(e.screenDelta.x, t.sensitivity)),
                 AxisAngle(XAxis, TurnAngle(e.screenDelta.y, t.sensitivity))]
  {
    var h := HandleDrag(t, e);
  }

  /** `resetRootTransform`, on the component. */
  function ResetRoot(t: Three): (r: Three)
    ensures r.root.transform == Identity && r.root.children == t.root.children
    ensures r.(root := t.root) == t
  {
    t.(root := ResetRootTransform(t.root))
  }

  /** `clearRoot`, on the component. */
  function ClearThree(t: Three): (r: Three)
    ensures r.root == EmptyRoot && r.(root := t.root) == t
  {
    t.(root := ClearRoot(t.root))
  }
}

=== FILE: three_utils.dfy ===
/** The discrete parts of `ThreeUtils` (three-utils.ts): the NDC box test,
    the depth-first searches of an object tree, the choice of focused object
    from a pick, and the CSG intersection as an opaque mesh constructor. */
module ThreeUtils {
  import opened Wrappers
  import opened Geometry
  import opened Scene

  /** `isNDC`: both coordinates within [-1, 1], bounds included. */
  function IsNDC(v: Vec2): (b: bool)
    ensures b <==> Abs(v.x) <= 1.0 && Abs(v.y) <= 1.0
  {
    v.x <= 1.0 && v.x >= -1.0 && v.y <= 1.0 && v.y >= -1.0
  }

  /** `findChild`: the root if it satisfies the predicate, otherwise the
      result of the first child subtree, in child order, that yields one. */
  function FindChild(n: Node, p: Node -> bool): (r: Option<Node>)
    ensures p(n) ==> r == Some(n)
    ensures r.Some? ==> p(r.value) && r.value in PreOrder(n)
    ensures r.None? ==> forall m :: m in PreOrder(n) ==> !p(m)
  {
    if p(n) then Some(n) else FindInChildren(n.children, p)
  }

  /** The loop of `findChild` over `children`, stopping at the first hit. */
  function FindInChildren(cs: seq<Node>, p: Node -> bool): (r: Option<Node>)
    ensures r.Some? ==> p(r.value) && r.value in PreOrderAll(cs)
    ensures r.None? ==> forall m :: m in PreOrderAll(cs) ==> !p(m)
  {
    if cs == [] then None
    else
      match FindChild(cs[0], p)
      case Some(m) => Some(m)
      case None => FindInChildren(cs[1..], p)
  }

  /** Reference definition: the first element of a sequence satisfying `p`. */
  function FirstMatch(s: seq<Node>, p: Node -> bool): (r: Option<Node>)
    ensures r.None? <==> forall i :: 0 <= i < |s| ==> !p(s[i])
    ensures r.Some? ==> exists k :: 0 <= k < |s| && s[k] == r.value && p(s[k]) && forall j :: 0 <= j < k ==> !p(s[j])
  {
    if s == [] then None
    else if p(s[0]) then Some(s[0])
    else
      var r := FirstMatch(s[1..], p);
      assert forall i :: 0 <= i < |s| - 1 ==> s[1..][i] == s[i + 1];
      r
  }

  lemma {:induction false} FirstMatchAppend(a: seq<Node>, b: seq<Node>, p: Node -> bool)
    ensures FirstMatch(a + b, p) == if FirstMatch(a, p).Some? then FirstMatch(a, p) else FirstMatch(b, p)
  {
    if a != [] {
      assert (a + b)[1..] == a[1..] + b;
      FirstMatchAppend(a[1..], b, p);
    } else {
      assert a + b == b;
    }
  }

  /** `findChild` finds the first node of the subtree, in pre-order, that
      satisfies the predicate, and null exactly when there is none. */
  lemma {:induction false} FindChildIsFirstMatch(n: Node, p: Node -> bool)
    ensures FindChild(n, p) == FirstMatch(PreOrder(n), p)
  {
    assert PreOrder(n) == [n] + PreOrderAll(n.children);
    FirstMatchAppend([n], PreOrderAll(n.children), p);
    FindInChildrenIsFirstMatch(n.children, p);
  }

  lemma {:induction false} FindInChildrenIsFirstMatch(cs: seq<Node>, p: Node -> bool)
    ensures FindInChildren(cs, p) == FirstMatch(PreOrderAll(cs), p)
  {
    if cs != [] {
      FindChildIsFirstMatch(cs[0], p);
      FindInChildrenIsFirstMatch(cs[1..], p);
      FirstMatchAppend(PreOrder(cs[0]), PreOrderAll(cs[1..]), p);
    }
  }

  /** `getChildMesh`: the root if it is a mesh, otherwise the first mesh
      found by searching the children in order. */
  function GetChildMesh(n: Node): (r: Option<Node>)
    ensures r.Some? ==> IsMesh(r.value)
    ensures IsMesh(n) ==> r == Some(n)
    ensures n.children == [] ==> (r.Some? <==> IsMesh(n))
  {
    if IsMesh(n) then Some(n) else GetChildMeshIn(n.children)
  }

  function GetChildMeshIn(cs: seq<Node>): (r: Option<Node>)
    ensures r.Some? ==> IsMesh(r.value)
  {
    if cs == [] then None
    else
      match GetChildMesh(cs[0])
      case Some(m) => Some(m)
      case None => GetChildMeshIn(cs[1..])
  }

  /** `getChildMesh(root)` is `findChild(root, isMesh)`: the first mesh of
      the subtree in pre-order, or null when the subtree holds none. */
  lemma {:induction false} GetChildMeshIsFindChild(n: Node)
    ensures GetChildMesh(n) == FindChild(n, IsMesh)
    ensures GetChildMesh(n) == FirstMatch(PreOrder(n), IsMesh)
  {
    GetChildMeshInIsFindInChildren(n.children);
    FindChildIsFirstMatch(n, IsMesh);
  }

  lemma {:induction false} GetChildMeshInIsFindInChildren(cs: seq<Node>)
    ensures GetChildMeshIn(cs) == FindInChildren(cs, IsMesh)
  {
    if cs != [] {
      GetChildMeshIsFindChild(cs[0]);
      GetChildMeshInIsFindInChildren(cs[1..]);
    }
  }

  /** One entry of `Raycaster.intersectObject`: the object struck and the
      world-space point. The list comes sorted nearest first. */
  datatype Hit = Hit(obj: Node, point: Vec3)

  /** `getPointerFocusedObject`, given the pick: the object of the nearest
      hit, or null when the ray struck nothing. */
  function FocusedObject(hits: seq<Hit>): (r: Option<Node>)
    ensures r.None? <==> hits == []
    ensures r.Some? ==> r.value == hits[0].obj
  {
    if |hits| > 0 then Some(hits[0].obj) else None
  }

  /** `getIntersectionMesh`: the CSG intersection of two (non-null) meshes
      is a new standalone mesh, whose geometry this model does not compute. */
  function IntersectionMesh(meshA: Node, meshB: Node, newId: NodeId): (r: Node)
    ensures IsMesh(r) && r.id == newId && r.children == []
  {
    Node(newId, Mesh, "", [])
  }
}

=== FILE: wrappers.dfy ===
/** Optional values and results, standing in for the source's `T | null`
    fields and for operations that can throw. */
module Wrappers {

  /** `None` plays the part of JavaScript's `null`/`undefined`. */
  datatype Option<+T> = None | Some(value: T) {

    /** The value, or `default` when absent (the `??` operator). */
    function GetOr(default: T): T {
      match this
      case Some(v) => v
      case None => default
    }
  }

  /** The outcome of an operation that either completes or throws. */
  datatype Result<+T, +E> = Ok(value: T) | Thrown(error: E)
}
